=== FILE: README.md ===
# USB device engine of the candleLight bulk demo firmware

A model of the register-level USB full-speed device driver in
`firmware/main.c`: the STM32 USB peripheral's endpoint registers and their
mixed write semantics, the packet memory with its buffer table, the setup
packet and the descriptors the device serves, the driver routines
`usbSetup`, `usbSetupEndpoints`, `usbSend`, `usbSendStall` and
`usbReceive`, and one iteration of the polling loop in `main` that runs the
control endpoint's state machine (`IDLE`, `SET_ADDRESS`, `AWAIT_TX`,
`GET_DESCRIPTOR`) and the two bulk endpoints.

The controller's side of the loop enters as data: a `Driver.Device` value
holds the interrupt status, buffer-table and address registers, the three
endpoint registers, the packet memory and the loop's two variables (`usbMode`,
`usbAddress`). Whatever flags the hardware raised, and whatever bytes it
left in a receive buffer, are whatever that value holds when an iteration
starts; `Control.Step` is the firmware's reaction.

Modules, following the program's structure:

- `Bytes` — little-endian halves of a 16-bit word.
- `Registers` — the endpoint register masks, the hardware's write rule
  (toggle bits flip when written with 1, the CTR flags can only be cleared,
  SETUP is read-only, the rest take the written value) and the register
  words each driver routine computes.
- `PacketMemory` — the 1024-byte packet memory as 16-bit words on a 32-bit
  bus (stride 2), the buffer table, the memory layout, and the strided copy
  in and out of a buffer.
- `SetupRequest` — the 8-byte setup packet and its request codes.
- `Descriptors` — the device, configuration, interface and endpoint
  descriptors, their byte encodings and the firmware's constant tables.
- `Driver` — the device state and the five driver routines.
- `Control` — the request dispatch and one iteration of the loop.
- `ControlProperties` — what an iteration does for each kind of event.

On a bus reset the firmware re-runs `usbSetup` but keeps `usbMode` and
`usbAddress` (lines 443-446), so a transfer left unfinished by the reset
continues in the mode it was in (`ControlProperties.StepAfterReset`).

The loop reads endpoint 0's register once (line 449) and tests that
snapshot for both the receive and the transmit branch. When a setup packet
and a transmit completion are reported together, the transmit branch acts
on the mode the setup request just chose; for SET_ADDRESS the new address
is then committed before its status stage has gone out.
`ControlProperties.StepStaleSnapshotCommitsEarly` states this behaviour as
the code has it. For GET_DESCRIPTOR the same snapshot makes the transmit
branch replace the descriptor just queued with a zero-length packet, so the
descriptor is lost (`ControlProperties.StepStaleSnapshotLosesDescriptor`).

## Model

| member | source | states |
|---|---|---|
| Registers.FieldsPartition | firmware/main.c:272-282 | the toggle bits, the clear-only CTR flags and the plain bits are disjoint and, with the read-only SETUP bit, cover the whole register |
| Registers.HwWrite | firmware/main.c:272-282 | per bit: a toggle bit ends as old XOR written, a CTR flag survives only if it was set and written with 1, a plain bit takes the written value, SETUP keeps its value |
| Registers.HwWriteKeeps | firmware/main.c:272-282 | writing the toggle bits as 0 and the CTR flags as 1 leaves a register unchanged, the convention every driver routine relies on |
| Registers.ComposedWrite | firmware/main.c:299-307 | writing ((old XOR pattern) AND NOT clear) OR set back to the register drives every toggle field outside clear and set to the pattern, keeps those in clear and flips those in set; keeps the CTR flags in set, clears those in clear and clears those outside both where the pattern has a 1; writes the plain bits in set as 1 and those in clear as 0 and flips those outside both where the pattern has a 1; keeps SETUP. With a pattern of 0 outside the helper's own status field, this is why reading, xor-ing and masking changes only the field the helper owns |
| Registers.HwWriteDrivesToggle | firmware/main.c:299-307 | writing old XOR wanted into a toggle field sets that field to the wanted value |
| Registers.SendReg | firmware/main.c:299-307 | after usbSend's register write the transmit status is VALID, the transmit-complete flag is cleared, and every other bit, the data toggles and the whole receive half included, is as before |
| Registers.StallReg | firmware/main.c:311-321 | after usbSendStall's write the transmit status is STALL, TX_CTR is cleared, everything else is as before |
| Registers.ReceiveReg | firmware/main.c:324-334 | after usbReceive's write the receive status is VALID, RX_CTR is cleared, and every other bit, the data toggles and the whole transmit half included, is as before |
| Registers.BulkInReg | firmware/main.c:257-265 | endpoint 1 becomes a bulk endpoint with address 1, transmit STALLed, receive disabled, both toggles and both CTR flags cleared, kind cleared |
| Registers.BulkOutReg | firmware/main.c:257-269 | endpoint 2 becomes a bulk endpoint with address 2, receive VALID, transmit disabled, both toggles and both CTR flags cleared |
| Registers.ControlReg | firmware/main.c:243-244 | the plain write of usbSetup makes endpoint 0 a control endpoint at address 0 with both CTR flags cleared, and toggles the receive status by VALID; only from the reset register value (all toggles 0) does this give receive VALID and transmit DISABLED |
| Registers.StallIdempotent | firmware/main.c:311-321 | stalling twice is stalling once |
| Registers.SendReceiveCommute | firmware/main.c:296-334 | arming transmission and arming reception touch disjoint halves of the register, so their order does not matter |
| Registers.ControlRegNeedsResetRegister | firmware/main.c:243-244 | applied to a register whose receive status is already VALID, usbSetup's write disables reception, so the write is right only after a hardware reset |
| PacketMemory.LayoutDisjoint | firmware/main.c:228-233 | the buffer table and the four endpoint buffers do not overlap, lie inside packet memory, and the table holds every entry the firmware uses |
| PacketMemory.RxCountsMatchLayout | firmware/main.c:239-255 | the receive-count words written at setup announce capacities of 64 and 16 bytes, the sizes of endpoint 0's and endpoint 2's receive buffers |
| PacketMemory.Write | firmware/main.c:239-241 | a register write into packet memory changes exactly the addressed word |
| PacketMemory.WriteHalfwords | firmware/main.c:287-294 | the strided copy changes no word outside the every-other-word footprint it writes |
| PacketMemory.ReadHalfwords | firmware/main.c:458-464 | reading n halfwords from a buffer with stride 2 gives n halfwords; WriteThenRead makes it the inverse of the strided write |
| PacketMemory.WriteThenRead | firmware/main.c:287-294 | reading back with the receive loop's stride yields exactly the halfwords the transmit loop wrote |
| PacketMemory.UnpackHalfwords | firmware/main.c:287-294 | splitting the copied halfwords back into bytes gives the first 2n bytes of the source data, little-endian |
| PacketMemory.HalfwordsUnpack | firmware/main.c:458-464 | pairing up the bytes of a sequence of halfwords gives those halfwords back |
| PacketMemory.Unpack | firmware/main.c:458-464 | viewing halfwords as bytes, low byte first, gives twice as many bytes; HalfwordsUnpack and UnpackHalfwords make it the inverse of Halfwords |
| PacketMemory.Halfwords | firmware/main.c:287-291 | viewing a byte buffer as little-endian 16-bit words gives the requested number of halfwords; UnpackHalfwords and HalfwordsUnpack make it the inverse of Unpack |
| PacketMemory.CopyToBuffer | firmware/main.c:287-294 | the loop copying (size + 1) / 2 halfwords with destination stride 2 produces the strided write of the data's halfwords |
| PacketMemory.CopyFromBuffer | firmware/main.c:458-464 | the loop fetching the setup packet returns, for each index, the word at the start plus twice the index |
| SetupRequest.Encode | firmware/main.c:213-220 | the packed 8-byte request decodes back to the same request |
| SetupRequest.EncodeDecode | firmware/main.c:213-220 | every 8-byte packet is the encoding of the request it decodes to |
| Descriptors.EncodeDevice | firmware/main.c:79-94 | the packed device descriptor is 18 bytes and decodes back to the same descriptor |
| Descriptors.DecodeEncodeDevice | firmware/main.c:79-94 | every 18-byte string is the encoding of the device descriptor it decodes to |
| Descriptors.EncodeConfig | firmware/main.c:96-105 | the packed configuration header is 9 bytes and decodes back |
| Descriptors.DecodeEncodeConfig | firmware/main.c:96-105 | every 9-byte string re-encodes to itself through the configuration header |
| Descriptors.EncodeInterface | firmware/main.c:107-117 | the packed interface descriptor is 9 bytes and decodes back |
| Descriptors.DecodeEncodeInterface | firmware/main.c:107-117 | every 9-byte string re-encodes to itself through the interface descriptor |
| Descriptors.EncodeEndpoint | firmware/main.c:119-126 | the packed endpoint descriptor is 7 bytes and decodes back |
| Descriptors.DecodeEncodeEndpoint | firmware/main.c:119-126 | every 7-byte string re-encodes to itself through the endpoint descriptor |
| Descriptors.EncodeConfiguration | firmware/main.c:148-153 | the packed configuration block (header, interface, two endpoints) is 32 bytes and decodes back to the same four descriptors |
| Descriptors.DecodeEncodeConfiguration | firmware/main.c:148-153 | every 32-byte string re-encodes to itself through the configuration block |
| Descriptors.DeviceBytesLayout | firmware/main.c:130-145 | the device descriptor table starts with length 18, type 1, USB 2.0, vendor-specific class, 64-byte control packets, vendor 0x0483, product 0x5722 and one configuration |
| Descriptors.ConfigurationBytesLayout | firmware/main.c:155-193 | the configuration block reports a total length of 32, one interface with two endpoints, bus power at 100 mA, bulk IN endpoint 0x81 and bulk OUT endpoint 0x02 of 16 bytes each |
| Driver.UsbSend | firmware/main.c:285-308 | usbSend arms the endpoint with SendReg, stores the size (truncated to 16 bits) in the endpoint's transmit count, writes only the count word and the strided buffer footprint, and touches no other register or loop variable |
| Driver.SendTransmits | firmware/main.c:285-308 | when the buffer lies after its table entry and inside packet memory and the size fits the count field, the bytes the controller will send are exactly the first size bytes of the data |
| Driver.SendKeepsInstalled | firmware/main.c:285-308 | sending into a buffer outside the buffer table keeps every installed table entry |
| Driver.TransmittedFrame | firmware/main.c:297 | the packet an endpoint will send depends only on its table entry, its count and the buffer words the count covers |
| Driver.UsbSendStall | firmware/main.c:310-321 | usbSendStall changes only endpoint 0's register, to StallReg |
| Driver.UsbReceive | firmware/main.c:323-334 | usbReceive changes only the named endpoint's register, to ReceiveReg |
| Driver.UsbSetup | firmware/main.c:223-248 | after usbSetup the interrupt flags are clear, the table is at 0, the device is enabled at address 0, endpoint 0 is configured by ControlReg, its buffers are installed with a 64-byte receive capacity, the loop variables are kept and no other packet-memory word changes |
| Driver.UsbSetupEndpoints | firmware/main.c:250-270 | after usbSetupEndpoints the bulk buffers are installed with a 16-byte receive capacity, endpoints 1 and 2 are configured by BulkInReg and BulkOutReg, endpoint 0 and the device registers are kept, and no other packet-memory word changes |
| Control.Min | firmware/main.c:51-53 | the result is one of the two arguments and no larger than either |
| Control.DescriptorBytes | firmware/main.c:498-508 | the table served for type 1 decodes to the device descriptor, the one for type 2 to the configuration block, and both fit endpoint 0's 64-byte buffer |
| Control.SendZeroLength | firmware/main.c:476-477 | a zero-length packet arms endpoint 0, makes its transmitted packet empty and changes only the count word of packet memory |
| Control.SetAddressAnswer | firmware/main.c:471-477 | SET_ADDRESS stages the low byte of wValue, enters SET_ADDRESS mode and arms endpoint 0, and does not change the device address yet |
| Control.SetConfigurationAnswer | firmware/main.c:478-488 | SET_CONFIGURATION configures both bulk endpoints, arms endpoint 1, arms the status packet and enters AWAIT_TX, without touching the device address |
| Control.DescriptorAnswer | firmware/main.c:494-509 | GET_DESCRIPTOR of a served type enters GET_DESCRIPTOR mode and arms endpoint 0, leaving the bulk endpoints alone |
| Control.StatusAnswer | firmware/main.c:519-546 | SET_INTERFACE and CLEAR_FEATURE enter AWAIT_TX and arm endpoint 0 with an empty status packet, changing only endpoint 0's count word in packet memory and neither bulk endpoint |
| Control.Dispatch | firmware/main.c:468-550 | the request switch never writes the device address, only SET_CONFIGURATION touches the bulk endpoints, every unanswered request is exactly usbSendStall, and the installed buffer table survives |
| Control.DispatchMode | firmware/main.c:468-550 | an answered request puts the loop in SET_ADDRESS, GET_DESCRIPTOR or AWAIT_TX as the request calls for; a stalled one keeps the mode; only SET_ADDRESS changes the staged address |
| Control.DispatchArmsOrStalls | firmware/main.c:468-550 | endpoint 0's transmit status ends VALID exactly when the request is answered and STALL otherwise, with TX_CTR cleared and the receive half untouched |
| Control.DispatchRegister | firmware/main.c:468-550 | endpoint 0's register after the switch is SendReg of its old value for an answered request and StallReg otherwise |
| Control.ReceivedCount | firmware/main.c:454 | the received byte count is the 10-bit count field, so it is below 1024 |
| Control.ReceivedRequest | firmware/main.c:455-464 | the request the firmware copies out is one whose 8-byte encoding is exactly the four halfwords read from endpoint 0's receive buffer |
| Control.ControlSetup | firmware/main.c:452-554 | a setup packet shorter than 8 bytes is stalled; a full one is dispatched on the request read from the receive buffer |
| Control.ControlOut | firmware/main.c:555-564 | an OUT packet on endpoint 0 ends GET_DESCRIPTOR and changes nothing else |
| Control.ControlReceived | firmware/main.c:450-568 | after handling a received packet, reception is re-armed and RX_CTR cleared, and the device registers are kept |
| Control.ControlTransmitted | firmware/main.c:569-590 | a finished IN commits the staged address in SET_ADDRESS mode, returns to IDLE except in GET_DESCRIPTOR, where a zero-length packet is armed and the mode kept; in every other mode endpoint 0 is stalled |
| Control.ControlPhase | firmware/main.c:449-590 | handling endpoint 0 keeps the interrupt flags and the installed buffer table |
| Control.BulkPhase | firmware/main.c:592-614 | a finished IN on endpoint 1 re-arms it, and with the bulk buffers installed its queued packet is the first four device-descriptor bytes; a receive on endpoint 2 re-arms reception, and neither touches endpoint 0, the loop variables or memory outside endpoint 1's buffer and count |
| Control.ResetPhase | firmware/main.c:443-446 | without a reset flag nothing changes; with one the result is usbSetup's, which keeps the loop variables |
| Control.Step | firmware/main.c:441-615 | an iteration keeps the installed buffer table |
| ControlProperties.GetDescriptorSendsPrefix | firmware/main.c:496-508 | the bytes endpoint 0 will send are the served table cut to min(table size, wLength) |
| ControlProperties.GetDeviceDescriptorRoundTrip | firmware/main.c:498-503 | when wLength covers it, the host receives 18 bytes that decode to the firmware's device descriptor |
| ControlProperties.GetConfigurationRoundTrip | firmware/main.c:504-508 | when wLength covers it, the host receives 32 bytes that decode to the firmware's configuration block |
| ControlProperties.SetAddressStaged | firmware/main.c:471-477 | SET_ADDRESS stages the address, keeps the old device address, arms VALID and makes endpoint 0's packet empty |
| ControlProperties.SetConfigurationQueuesBulk | firmware/main.c:478-488 | SET_CONFIGURATION installs the bulk buffers, queues the first four device-descriptor bytes on endpoint 1, queues an empty status packet on endpoint 0 and enters AWAIT_TX |
| Control.BulkDataQueued | firmware/main.c:482-485 | after the bulk buffers are installed, endpoint 1's packet is the first four device-descriptor bytes |
| ControlProperties.StatusPacketKeepsBulk | firmware/main.c:487-488 | the status packet on endpoint 0 leaves endpoint 1's queued packet and buffers intact |
| ControlProperties.SetConfigurationConfiguresBulk | firmware/main.c:478-488 | after SET_CONFIGURATION endpoint 1 is a bulk IN endpoint with address 1 armed to send, and endpoint 2 a bulk OUT endpoint with address 2 armed to receive |
| ControlProperties.SendKeepsFields | firmware/main.c:299-307 | usbSend's write keeps the endpoint type and address |
| ControlProperties.HalvesIndependent | firmware/main.c:299-334 | arming or stalling transmission keeps the receive status and RX_CTR; arming reception keeps the transmit status and TX_CTR |
| ControlProperties.StepAfterReset | firmware/main.c:443-446 | a reset re-runs usbSetup: interrupt flags cleared, device enabled at address 0, endpoint 0 reconfigured, buffers reinstalled, and the mode and staged address kept |
| ControlProperties.StepAddressChanges | firmware/main.c:441-615 | without a reset the device address changes only when a transmit completion commits the staged address, which also returns the loop to IDLE |
| ControlProperties.StepCommitsAddress | firmware/main.c:572-577 | the status stage of SET_ADDRESS finishing commits the staged address, returns to IDLE and stalls endpoint 0 |
| ControlProperties.StepRearmsControlReception | firmware/main.c:450-567 | whenever endpoint 0 received, reception is re-armed and RX_CTR cleared |
| ControlProperties.StepStatusOutEndsDescriptor | firmware/main.c:555-564 | an OUT packet while in GET_DESCRIPTOR returns the loop to IDLE |
| ControlProperties.StepStallsRejectedSetup | firmware/main.c:489-554 | when no IN completion is pending on endpoint 0, a short or unanswered setup packet is stalled, reception re-armed, and the mode, staged address and device address kept |
| ControlProperties.StepStaleSnapshotLosesDescriptor | firmware/main.c:449-586 | when a GET_DESCRIPTOR setup and a transmit completion are reported together, and either every buffer is at its layout offset or endpoint 1 has no completion pending, the iteration ends in GET_DESCRIPTOR with endpoint 0 armed to send an empty packet instead of the descriptor |
| ControlProperties.StepStaleSnapshotCommitsEarly | firmware/main.c:449-577 | when a SET_ADDRESS setup and a transmit completion are reported together, the address is committed and endpoint 0 stalled in the same iteration |
| ControlProperties.ControlPhaseAnswersSetup | firmware/main.c:450-568 | a full setup packet without a transmit completion is dispatched, then reception is re-armed |
| ControlProperties.StepAnswersGetDescriptor | firmware/main.c:494-517 | when no IN completion is pending on endpoint 0 and either the bulk buffers are installed or no endpoint 1 completion is pending, a GET_DESCRIPTOR setup leaves the loop in GET_DESCRIPTOR with endpoint 0 armed to send the served table (cut to wLength) |
| ControlProperties.BulkKeepsEp0Packet | firmware/main.c:592-614 | with every buffer at its layout offset, the bulk part leaves endpoint 0's register, the mode and a packet of at most 64 bytes queued on endpoint 0 alone, since endpoint 1's packet goes to its own buffer |
| ControlProperties.QuietBulkKeepsControl | firmware/main.c:592-614 | with no endpoint 1 completion, the bulk part leaves endpoint 0's register, the mode and endpoint 0's packet alone |
| ControlProperties.ControlPhaseBulkRegisters | firmware/main.c:478-488 | endpoint 0's handling leaves both bulk registers alone unless it answers SET_CONFIGURATION, which sets them up again and arms endpoint 1 |
| ControlProperties.ControlPhaseQueuesBulk | firmware/main.c:478-488 | a SET_CONFIGURATION answered in the control phase leaves the first four device-descriptor bytes queued on endpoint 1 at its end |
| ControlProperties.ResetKeepsBulkBuffers | firmware/main.c:443-446 | a bus reset keeps the bulk table entries, and afterwards endpoint 0 either has its buffers or reports no reception |
| ControlProperties.ControlPhaseKeepsBulkBuffers | firmware/main.c:449-590 | the control phase keeps the bulk table entries |
| ControlProperties.StepRearmsBulkIn | firmware/main.c:594-601 | whatever endpoint 0 does in the same iteration, once endpoint 1 finished sending it ends armed (VALID, TX_CTR clear) with the first four device-descriptor bytes queued; its register is usbSend's update, of the reconfigured register when SET_CONFIGURATION was answered |
| ControlProperties.StepRearmsBulkOut | firmware/main.c:604-614 | whatever endpoint 0 does in the same iteration, once endpoint 2 received its reception is re-armed with RX_CTR clear; the register is usbReceive's update with the rest kept, or usbSetupEndpoints' when SET_CONFIGURATION was answered |
| ControlProperties.StepQuiet | firmware/main.c:441-615 | with no reset and no endpoint flag, an iteration changes nothing |
| ControlProperties.ReceivedRequestRoundTrip | firmware/main.c:458-464 | a request the host placed in endpoint 0's receive buffer is read back by the firmware as the same request |

## Left out

- LEDs, the clock and GPIO setup, the CAN controller setup and the startup
  delay in `main`: they do not affect the USB engine. The first byte
  received on endpoint 2 only switches the activity LED on or off, and a
  completion on endpoint 1 only toggles it, so the model re-arms reception
  and ignores the bytes.
- The host program `src/main.cpp` is not part of this model.
- Hardware changing a register between the firmware's read and its write
  (a flag raised in the middle of a read-modify-write) is not modelled; each
  driver routine reads and writes atomically.
- The `while (1)` loop's liveness: the model is one iteration, `Step`.
- The register field masks are those of the STM32 USB peripheral; the
  libopencm3 header that defines them is not part of this model.
- The buffer table is fixed at packet-memory offset 0: `usbSetup` writes 0
  to the buffer-table register (line 236) and nothing else writes it, so
  table accesses use offset 0 instead of reading that register.
- Interrupt status flags other than RESET are not read by the loop and are
  not modelled.
- Packet-memory writes outside the 1024 bytes are dropped and reads there
  give 0, in place of the undefined behaviour of the real bus.
- Driver.UsbSend: the transmit count is written as the size truncated to 16
  bits, but the hardware's 10-bit count field and any size larger than a
  buffer are outside SendTransmits, which requires the size to fit.
- A GET_DESCRIPTOR answer longer than one 64-byte packet would need a
  continuation the firmware does not implement; both served tables fit one
  packet (`Control.DescriptorBytes`).
- The configuration value of SET_CONFIGURATION and the interface number of
  SET_INTERFACE are read by the firmware but never used, so the model does
  not read them.
- Control.ControlPhase: its own contract states only that the interrupt
  flags and the buffer table survive; its behaviour per event is stated by
  the ControlProperties lemmas (ControlPhaseAnswersSetup and the Step
  lemmas).
- Control.Step: its own contract states only that the buffer table
  survives; what an iteration does for each event is stated by the
  ControlProperties lemmas.

=== FILE: bytes.dfy ===
/** Little-endian halves of a 16-bit word, the byte order of every packed
    structure the firmware exchanges (descriptors, setup packets) and of the
    halfword copies into and out of packet memory. */
module Bytes {

  /** Low (first) byte of a little-endian halfword. */
  function Lo(h: bv16): bv8
  {
    (h & 0xFF) as bv8
  }

  /** High (second) byte of a little-endian halfword. */
  function Hi(h: bv16): bv8
  {
    (h >> 8) as bv8
  }

  /** The halfword whose bytes in memory are `lo` then `hi`. */
  function Join(lo: bv8, hi: bv8): (h: bv16)
    ensures Lo(h) == lo && Hi(h) == hi
  {
    (lo as bv16) | ((hi as bv16) << 8)
  }

  /** Splitting a halfword and joining the halves gives it back. */
  lemma JoinSplit(h: bv16)
    ensures Join(Lo(h), Hi(h)) == h
  {
  }

  /** A 16-bit field as it is laid out in a packed structure. */
  function Le16(h: bv16): (r: seq<bv8>)
    ensures |r| == 2 && Join(r[0], r[1]) == h
  {
    JoinSplit(h);
    [Lo(h), Hi(h)]
  }
}

=== FILE: control.dfy ===
/** One iteration of the firmware's polling loop: bus reset, the control
    endpoint's setup, OUT and IN completions, then the two bulk endpoints.

    The hardware's side of the loop (flags the controller raised, the bytes
    it placed in a receive buffer) is whatever the `Device` value holds when
    an iteration starts; `Step` is the firmware's reaction to it. */
module Control {
  import opened Bytes
  import opened Registers
  import opened PacketMemory
  import opened SetupRequest
  import opened Descriptors
  import opened Driver

  /** The smaller of two integers. */
  function Min(a: int, b: int): (r: int)
    ensures r <= a && r <= b
    ensures r == a || r == b
  {
    if a < b then a else b
  }

  /** Bytes endpoint 1 sends each time: the head of the device descriptor. */
  const BULK_PAYLOAD_SIZE: nat := 4

  /** The descriptor types GET_DESCRIPTOR serves. */
  predicate KnownDescriptor(descriptorType: bv8)
  {
    descriptorType == DESCRIPTOR_DEVICE || descriptorType == DESCRIPTOR_CONFIGURATION
  }

  /** The table a served descriptor type is answered from. */
  function DescriptorBytes(descriptorType: bv8): (bytes: seq<bv8>)
    requires KnownDescriptor(descriptorType)
    ensures |bytes| <= EP0_TX_BUFFER.size
    ensures descriptorType == DESCRIPTOR_DEVICE ==>
      |bytes| == DEVICE_DESCRIPTOR_SIZE && DecodeDevice(bytes) == USB_DEVICE
    ensures descriptorType == DESCRIPTOR_CONFIGURATION ==>
      |bytes| == CONFIGURATION_SIZE && DecodeConfiguration(bytes) == USB_CONFIGURATION
  {
    if descriptorType == DESCRIPTOR_DEVICE then DEVICE_BYTES else CONFIGURATION_BYTES
  }

  /** The requests the firmware answers; every other one is stalled. */
  predicate Answered(req: Request)
  {
    || (req.requestType == STANDARD_OUT_DEVICE && req.request == SET_ADDRESS)
    || (req.requestType == STANDARD_OUT_DEVICE && req.request == SET_CONFIGURATION)
    || (req.requestType == STANDARD_IN_DEVICE && req.request == GET_DESCRIPTOR
        && KnownDescriptor(Hi(req.value)))
    || (req.requestType == STANDARD_OUT_INTERFACE && req.request == SET_INTERFACE)
    || (req.requestType == STANDARD_OUT_ENDPOINT && req.request == CLEAR_FEATURE)
  }

  /** SET_CONFIGURATION, the one request that touches the bulk endpoints. */
  predicate IsSetConfiguration(req: Request)
  {
    req.requestType == STANDARD_OUT_DEVICE && req.request == SET_CONFIGURATION
  }

  /** The mode an answered request leaves the loop in. */
  function ModeAfter(req: Request): UsbMode
    requires Answered(req)
  {
    if req.request == SET_ADDRESS then SetAddress
    else if req.request == GET_DESCRIPTOR then GetDescriptor
    else AwaitTx
  }

  /** A zero-length packet on endpoint 0: the status stage of a request
      without a data stage. */
  function SendZeroLength(d: Device): (r: Device)
    ensures r.ep0 == SendReg(d.ep0) && r.ep1 == d.ep1 && r.ep2 == d.ep2
    ensures r.istr == d.istr && r.btable == d.btable && r.daddr == d.daddr
    ensures r.mode == d.mode && r.address == d.address
    ensures |r.pma| == |d.pma|
    ensures TxCountSlot(0) < |d.pma| ==> Transmitted(r.pma, Ep0) == []
    ensures forall k | 0 <= k < |d.pma| && k != TxCountSlot(0) :: r.pma[k] == d.pma[k]
    ensures Installed(d.pma) ==> Installed(r.pma)
  {
    SendKeepsInstalled(d, Ep0, [], 0);
    UsbSend(d, Ep0, [], 0)
  }

  /** SET_ADDRESS: stage the address (the low byte of wValue) and answer
      with the zero-length status packet; the address takes effect only once
      that packet has gone out. */
  function SetAddressAnswer(d: Device, value: bv16): (r: Device)
    ensures r.mode == SetAddress && r.address == Lo(value) && r.daddr == d.daddr
    ensures r.ep0 == SendReg(d.ep0) && r.ep1 == d.ep1 && r.ep2 == d.ep2
    ensures r.istr == d.istr && r.btable == d.btable && |r.pma| == |d.pma|
    ensures Installed(d.pma) ==> Installed(r.pma)
  {
    SendZeroLength(d.(mode := SetAddress, address := Lo(value)))
  }

  /** SET_CONFIGURATION: configure the bulk endpoints, put the first four
      bytes on endpoint 1 and answer with the zero-length status packet. */
  function SetConfigurationAnswer(d: Device): (r: Device)
    ensures r.mode == AwaitTx && r.address == d.address && r.daddr == d.daddr
    ensures r.ep0 == SendReg(d.ep0)
    ensures r.ep1 == SendReg(BulkInReg(d.ep1)) && r.ep2 == BulkOutReg(d.ep2)
    ensures r.istr == d.istr && r.btable == d.btable && |r.pma| == |d.pma|
    ensures Installed(d.pma) ==> Installed(r.pma)
  {
    var configured := UsbSetupEndpoints(d.(mode := AwaitTx));
    SendKeepsInstalled(configured, Ep1, DEVICE_BYTES, BULK_PAYLOAD_SIZE);
    SendZeroLength(UsbSend(configured, Ep1, DEVICE_BYTES, BULK_PAYLOAD_SIZE))
  }

  /** GET_DESCRIPTOR of a served type: the descriptor, cut to the length the
      host asked for, as the data stage. */
  function DescriptorAnswer(d: Device, descriptorType: bv8, length: bv16): (r: Device)
    requires KnownDescriptor(descriptorType)
    ensures r.mode == GetDescriptor && r.address == d.address && r.daddr == d.daddr
    ensures r.ep0 == SendReg(d.ep0) && r.ep1 == d.ep1 && r.ep2 == d.ep2
    ensures r.istr == d.istr && r.btable == d.btable && |r.pma| == |d.pma|
    ensures Installed(d.pma) ==> Installed(r.pma)
  {
    var bytes := DescriptorBytes(descriptorType);
    SendKeepsInstalled(d.(mode := GetDescriptor), Ep0, bytes, Min(|bytes|, length as int));
    UsbSend(d.(mode := GetDescriptor), Ep0, bytes, Min(|bytes|, length as int))
  }

  /** SET_INTERFACE and CLEAR_FEATURE: nothing to do but the zero-length
      status packet. */
  function StatusAnswer(d: Device): (r: Device)
    ensures r.mode == AwaitTx && r.address == d.address && r.daddr == d.daddr
    ensures r.ep0 == SendReg(d.ep0) && r.ep1 == d.ep1 && r.ep2 == d.ep2
    ensures r.istr == d.istr && r.btable == d.btable && |r.pma| == |d.pma|
    ensures TxCountSlot(0) < |d.pma| ==> Transmitted(r.pma, Ep0) == []
    ensures forall k | 0 <= k < |d.pma| && k != TxCountSlot(0) :: r.pma[k] == d.pma[k]
    ensures Installed(d.pma) ==> Installed(r.pma)
  {
    SendZeroLength(d.(mode := AwaitTx))
  }

  /** The answer to one setup request: one of the four answers above, or a
      stall. The device address is never written here. */
  function Dispatch(d: Device, req: Request): (r: Device)
    ensures r.daddr == d.daddr && r.istr == d.istr && r.btable == d.btable
    ensures |r.pma| == |d.pma|
    ensures !IsSetConfiguration(req) ==> r.ep1 == d.ep1 && r.ep2 == d.ep2
    ensures !Answered(req) ==> r == UsbSendStall(d)
    ensures Installed(d.pma) ==> Installed(r.pma)
  {
    if req.requestType == STANDARD_OUT_DEVICE then
      if req.request == SET_ADDRESS then SetAddressAnswer(d, req.value)
      else if req.request == SET_CONFIGURATION then SetConfigurationAnswer(d)
      else UsbSendStall(d)
    else if req.requestType == STANDARD_IN_DEVICE then
      if req.request == GET_DESCRIPTOR && KnownDescriptor(Hi(req.value)) then
        DescriptorAnswer(d, Hi(req.value), req.length)
      else UsbSendStall(d)
    else if req.requestType == STANDARD_OUT_INTERFACE then
      if req.request == SET_INTERFACE then StatusAnswer(d) else UsbSendStall(d)
    else if req.requestType == STANDARD_OUT_ENDPOINT then
      if req.request == CLEAR_FEATURE then StatusAnswer(d) else UsbSendStall(d)
    else
      UsbSendStall(d)
  }

  /** The loop's mode and staged address after a request: the mode the
      request calls for, the staged address only for SET_ADDRESS, both as
      they were for a stalled request. */
  lemma DispatchMode(d: Device, req: Request)
    ensures Answered(req) ==> Dispatch(d, req).mode == ModeAfter(req)
    ensures !Answered(req) ==> Dispatch(d, req).mode == d.mode
    ensures Dispatch(d, req).address
      == (if Answered(req) && req.request == SET_ADDRESS then Lo(req.value) else d.address)
  {
  }

  /** Every answered request arms endpoint 0's transmission (the data stage
      or the zero-length status packet), every other request stalls it, and
      the receive half of the register is left as it was either way. */
  lemma DispatchArmsOrStalls(d: Device, req: Request)
    ensures Dispatch(d, req).ep0 & TX_STAT == (if Answered(req) then TX_STAT_VALID else TX_STAT_STALL)
    ensures Dispatch(d, req).ep0 & TX_CTR == 0
    ensures Dispatch(d, req).ep0 & NOT_TX_OWNED == d.ep0 & NOT_TX_OWNED
  {
    DispatchRegister(d, req);
    if Answered(req) {
      var x := SendReg(d.ep0);
      assert x & TX_STAT == TX_STAT_VALID;
    } else {
      var x := StallReg(d.ep0);
      assert x & TX_STAT == TX_STAT_STALL;
    }
  }

  /** Endpoint 0's register after a request is usbSend's or usbSendStall's
      update of what it was. */
  lemma DispatchRegister(d: Device, req: Request)
    ensures Dispatch(d, req).ep0 == (if Answered(req) then SendReg(d.ep0) else StallReg(d.ep0))
  {
  }

  /** Bytes the controller counted in endpoint 0's receive buffer. */
  function ReceivedCount(d: Device): (n: nat)
    ensures n < COUNT_LIMIT
  {
    CountBounded(Read(d.pma, RxCountSlot(0)));
    (Read(d.pma, RxCountSlot(0)) & COUNT_MASK) as nat
  }

  /** The setup packet in endpoint 0's receive buffer, fetched with the same
      stride as the transmit copy. */
  function ReceivedRequest(d: Device): (req: Request)
    ensures Encode(req) == Unpack(ReadHalfwords(d.pma, RxStart(d.pma, Ep0), REQUEST_SIZE / 2))
  {
    EncodeDecode(Unpack(ReadHalfwords(d.pma, RxStart(d.pma, Ep0), REQUEST_SIZE / 2)));
    Decode(Unpack(ReadHalfwords(d.pma, RxStart(d.pma, Ep0), REQUEST_SIZE / 2)))
  }

  /** A setup packet arrived: answer it, or stall one shorter than a
      request. */
  function ControlSetup(d: Device): (r: Device)
    ensures ReceivedCount(d) < REQUEST_SIZE ==> r == UsbSendStall(d)
    ensures REQUEST_SIZE <= ReceivedCount(d) ==> r == Dispatch(d, ReceivedRequest(d))
    ensures Installed(d.pma) ==> Installed(r.pma)
  {
    if ReceivedCount(d) >= REQUEST_SIZE then Dispatch(d, ReceivedRequest(d))
    else UsbSendStall(d)
  }

  /** A data packet arrived on endpoint 0: the only one the firmware expects
      is the host's status packet closing GET_DESCRIPTOR. */
  function ControlOut(d: Device): (r: Device)
    ensures r.mode == (if d.mode == GetDescriptor then Idle else d.mode)
    ensures r == d.(mode := r.mode)
    ensures Installed(d.pma) ==> Installed(r.pma)
  {
    if d.mode == GetDescriptor then d.(mode := Idle) else d
  }

  /** Endpoint 0 received: handle the packet the snapshot says it is, then
      re-arm reception. */
  function ControlReceived(d: Device, snapshot: bv16): (r: Device)
    ensures r.ep0 & RX_STAT == RX_STAT_VALID && r.ep0 & RX_CTR == 0
    ensures r.daddr == d.daddr && r.istr == d.istr && r.btable == d.btable
    ensures |r.pma| == |d.pma|
    ensures Installed(d.pma) ==> Installed(r.pma)
  {
    var handled := if snapshot & SETUP != 0 then ControlSetup(d) else ControlOut(d);
    UsbReceive(handled, Ep0)
  }

  /** An IN transfer on endpoint 0 completed: commit a staged address after
      the status stage of SET_ADDRESS, close the status stage of the other
      requests, keep answering a descriptor read with zero-length packets,
      and stall anything unexpected. */
  function ControlTransmitted(d: Device): (r: Device)
    ensures r.ep1 == d.ep1 && r.ep2 == d.ep2 && r.address == d.address
    ensures r.istr == d.istr && r.btable == d.btable && |r.pma| == |d.pma|
    ensures r.daddr == (if d.mode == SetAddress then DADDR_EF | d.address as bv16 else d.daddr)
    ensures r.mode == (if d.mode == GetDescriptor then GetDescriptor else Idle)
    ensures r.ep0 == (if d.mode == GetDescriptor then SendReg(d.ep0) else StallReg(d.ep0))
    ensures d.mode == GetDescriptor && TxCountSlot(0) < |d.pma| ==> Transmitted(r.pma, Ep0) == []
    ensures forall k | 0 <= k < |d.pma| && k != TxCountSlot(0) :: r.pma[k] == d.pma[k]
    ensures Installed(d.pma) ==> Installed(r.pma)
  {
    match d.mode
    case SetAddress => UsbSendStall(d.(daddr := DADDR_EF | d.address as bv16, mode := Idle))
    case AwaitTx => UsbSendStall(d.(mode := Idle))
    case GetDescriptor => SendZeroLength(d)
    case Idle => UsbSendStall(d)
  }

  /** Everything the loop does for endpoint 0, given the snapshot of its
      register read once at the start: both branches test that snapshot. */
  function ControlPhase(d: Device): (r: Device)
    ensures r.istr == d.istr
    ensures |r.pma| == |d.pma|
    ensures Installed(d.pma) ==> Installed(r.pma)
  {
    var snapshot := d.ep0;
    var received := if snapshot & RX_CTR != 0 then ControlReceived(d, snapshot) else d;
    if snapshot & TX_CTR != 0 then ControlTransmitted(received) else received
  }

  /** Endpoint 1 finished sending: send the next four bytes. Endpoint 2
      received: re-arm it. Neither touches endpoint 0 or the loop's state. */
  function BulkPhase(d: Device): (r: Device)
    ensures r.ep0 == d.ep0 && r.mode == d.mode && r.address == d.address
    ensures r.daddr == d.daddr && r.istr == d.istr && |r.pma| == |d.pma|
    ensures r.ep1 == (if d.ep1 & TX_CTR != 0 then SendReg(d.ep1) else d.ep1)
    ensures r.ep2 == (if d.ep2 & RX_CTR != 0 then ReceiveReg(d.ep2) else d.ep2)
    ensures d.ep1 & TX_CTR == 0 ==> r.pma == d.pma
    ensures BulkBuffersInstalled(d.pma) && d.ep1 & TX_CTR != 0 ==>
      Transmitted(r.pma, Ep1) == DEVICE_BYTES[..BULK_PAYLOAD_SIZE]
    ensures BulkBuffersInstalled(d.pma) ==> forall k | 0 <= k < |d.pma| && k != TxCountSlot(1)
      && !EP1_TX_BUFFER.Contains(k) :: r.pma[k] == d.pma[k]
    ensures Installed(d.pma) ==> Installed(r.pma)
  {
    SendKeepsInstalled(d, Ep1, DEVICE_BYTES, BULK_PAYLOAD_SIZE);
    var sent :=
      if d.ep1 & TX_CTR == 0 then d
      else if BulkBuffersInstalled(d.pma) then
        BulkDataQueued(d);
        UsbSend(d, Ep1, DEVICE_BYTES, BULK_PAYLOAD_SIZE)
      else UsbSend(d, Ep1, DEVICE_BYTES, BULK_PAYLOAD_SIZE);
    if sent.ep2 & RX_CTR != 0 then UsbReceive(sent, Ep2) else sent
  }

  /** A bus reset reinitialises the controller side. */
  function ResetPhase(d: Device): (r: Device)
    ensures d.istr & ISTR_RESET == 0 ==> r == d
    ensures d.istr & ISTR_RESET != 0 ==> r == UsbSetup(d)
    ensures r.mode == d.mode && r.address == d.address
    ensures |r.pma| == |d.pma|
    ensures Installed(d.pma) ==> Installed(r.pma)
  {
    if d.istr & ISTR_RESET != 0 then UsbSetup(d) else d
  }

  /** The first bulk packet lands in endpoint 1's buffer and leaves the bulk
      table entries in place. */
  lemma BulkDataQueued(configured: Device)
    requires BulkBuffersInstalled(configured.pma)
    ensures BulkBuffersInstalled(UsbSend(configured, Ep1, DEVICE_BYTES, BULK_PAYLOAD_SIZE).pma)
    ensures Transmitted(UsbSend(configured, Ep1, DEVICE_BYTES, BULK_PAYLOAD_SIZE).pma, Ep1)
      == DEVICE_BYTES[..BULK_PAYLOAD_SIZE]
  {
    SendTransmits(configured, Ep1, DEVICE_BYTES, BULK_PAYLOAD_SIZE);
    assert !Strided(TxStart(configured.pma, Ep1), HalfwordCount(BULK_PAYLOAD_SIZE), TxAddrSlot(1));
    assert !Strided(TxStart(configured.pma, Ep1), HalfwordCount(BULK_PAYLOAD_SIZE), RxAddrSlot(2));
  }

  /** One iteration of the polling loop. */
  function Step(d: Device): (r: Device)
    ensures |r.pma| == |d.pma|
    ensures Installed(d.pma) ==> Installed(r.pma)
  {
    BulkPhase(ControlPhase(ResetPhase(d)))
  }
}

=== FILE: control_properties.dfy ===
/** What the control state machine promises the host, request by request and
    for whole iterations of the polling loop. */
module ControlProperties {
  import opened Bytes
  import opened Registers
  import opened PacketMemory
  import opened SetupRequest
  import opened Descriptors
  import opened Driver
  import opened Control

  /** GET_DESCRIPTOR of a served type sends the descriptor cut to wLength
      (never more than the descriptor) and waits for the host's status
      packet. */
  lemma GetDescriptorSendsPrefix(d: Device, req: Request)
    requires ControlBuffersInstalled(d.pma)
    requires req.requestType == STANDARD_IN_DEVICE && req.request == GET_DESCRIPTOR
    requires KnownDescriptor(Hi(req.value))
    ensures Dispatch(d, req).mode == GetDescriptor
    ensures Transmitted(Dispatch(d, req).pma, Ep0)
      == DescriptorBytes(Hi(req.value))[..Min(|DescriptorBytes(Hi(req.value))|, req.length as int)]
  {
    var bytes := DescriptorBytes(Hi(req.value));
    var size := Min(|bytes|, req.length as int);
    var e := d.(mode := GetDescriptor);
    assert Dispatch(d, req) == DescriptorAnswer(d, Hi(req.value), req.length);
    assert DescriptorAnswer(d, Hi(req.value), req.length) == UsbSend(e, Ep0, bytes, size);
    assert size <= 64;
    SendTransmits(e, Ep0, bytes, size);
  }

  /** A host that asks for at least the whole device descriptor decodes the
      firmware's device descriptor from the answer. */
  lemma GetDeviceDescriptorRoundTrip(d: Device, req: Request)
    requires ControlBuffersInstalled(d.pma)
    requires req.requestType == STANDARD_IN_DEVICE && req.request == GET_DESCRIPTOR
    requires Hi(req.value) == DESCRIPTOR_DEVICE
    requires req.length as int >= DEVICE_DESCRIPTOR_SIZE
    ensures |Transmitted(Dispatch(d, req).pma, Ep0)| == DEVICE_DESCRIPTOR_SIZE
    ensures DecodeDevice(Transmitted(Dispatch(d, req).pma, Ep0)) == USB_DEVICE
  {
    GetDescriptorSendsPrefix(d, req);
    assert DEVICE_BYTES[..DEVICE_DESCRIPTOR_SIZE] == DEVICE_BYTES;
  }

  /** Likewise for the configuration bundle: a host asking for at least
      wTotalLength bytes decodes the whole configuration. */
  lemma GetConfigurationRoundTrip(d: Device, req: Request)
    requires ControlBuffersInstalled(d.pma)
    requires req.requestType == STANDARD_IN_DEVICE && req.request == GET_DESCRIPTOR
    requires Hi(req.value) == DESCRIPTOR_CONFIGURATION
    requires req.length as int >= CONFIGURATION_SIZE
    ensures |Transmitted(Dispatch(d, req).pma, Ep0)| == CONFIGURATION_SIZE
    ensures DecodeConfiguration(Transmitted(Dispatch(d, req).pma, Ep0)) == USB_CONFIGURATION
  {
    GetDescriptorSendsPrefix(d, req);
    assert CONFIGURATION_BYTES[..CONFIGURATION_SIZE] == CONFIGURATION_BYTES;
  }

  /** SET_ADDRESS only stages the address: the device keeps answering at its
      old address, and the status stage is a zero-length packet. */
  lemma SetAddressStaged(d: Device, req: Request)
    requires d.Wf()
    requires req.requestType == STANDARD_OUT_DEVICE && req.request == SET_ADDRESS
    ensures Dispatch(d, req).mode == SetAddress
    ensures Dispatch(d, req).address == Lo(req.value)
    ensures Dispatch(d, req).daddr == d.daddr
    ensures Transmitted(Dispatch(d, req).pma, Ep0) == []
    ensures Dispatch(d, req).ep0 & TX_STAT == TX_STAT_VALID
  {
    DispatchArmsOrStalls(d, req);
  }

  /** SET_CONFIGURATION installs the bulk buffers, queues the first four
      bytes on endpoint 1 and answers with a zero-length packet. */
  lemma SetConfigurationQueuesBulk(d: Device, req: Request)
    requires d.Wf()
    requires IsSetConfiguration(req)
    ensures Dispatch(d, req).mode == AwaitTx
    ensures BulkBuffersInstalled(Dispatch(d, req).pma)
    ensures Transmitted(Dispatch(d, req).pma, Ep1) == DEVICE_BYTES[..BULK_PAYLOAD_SIZE]
    ensures Transmitted(Dispatch(d, req).pma, Ep0) == []
  {
    var configured := UsbSetupEndpoints(d.(mode := AwaitTx));
    var sent := UsbSend(configured, Ep1, DEVICE_BYTES, BULK_PAYLOAD_SIZE);
    var r := SendZeroLength(sent);
    assert Dispatch(d, req) == SetConfigurationAnswer(d) == r;
    BulkDataQueued(configured);
    StatusPacketKeepsBulk(sent);
  }

  /** The zero-length status packet on endpoint 0 disturbs neither the bulk
      table entries nor what endpoint 1 is about to send. */
  lemma StatusPacketKeepsBulk(sent: Device)
    requires BulkBuffersInstalled(sent.pma)
    ensures BulkBuffersInstalled(SendZeroLength(sent).pma)
    ensures Transmitted(SendZeroLength(sent).pma, Ep1) == Transmitted(sent.pma, Ep1)
  {
    var r := SendZeroLength(sent);
    assert r.pma[TxAddrSlot(1)] == sent.pma[TxAddrSlot(1)];
    assert r.pma[RxAddrSlot(2)] == sent.pma[RxAddrSlot(2)];
    TransmittedFrame(sent.pma, r.pma, Ep1);
  }

  /** SET_CONFIGURATION configures endpoint 1 as a bulk IN endpoint armed to
      send and endpoint 2 as a bulk OUT endpoint armed to receive. */
  lemma SetConfigurationConfiguresBulk(d: Device, req: Request)
    requires IsSetConfiguration(req)
    ensures Dispatch(d, req).ep1 & TX_STAT == TX_STAT_VALID && Dispatch(d, req).ep1 & RX_STAT == RX_STAT_DISABLED
    ensures Dispatch(d, req).ep1 & EP_TYPE == TYPE_BULK && Dispatch(d, req).ep1 & EP_ADDR == 1
    ensures Dispatch(d, req).ep2 & RX_STAT == RX_STAT_VALID && Dispatch(d, req).ep2 & TX_STAT == TX_STAT_DISABLED
    ensures Dispatch(d, req).ep2 & EP_TYPE == TYPE_BULK && Dispatch(d, req).ep2 & EP_ADDR == 2
  {
    var x := BulkInReg(d.ep1);
    assert Dispatch(d, req).ep1 == SendReg(x);
    SendKeepsFields(x);
    HalvesIndependent(x);
  }

  /** usbSend changes neither the type nor the address of an endpoint. */
  lemma SendKeepsFields(x: bv16)
    ensures SendReg(x) & EP_TYPE == x & EP_TYPE
    ensures SendReg(x) & EP_ADDR == x & EP_ADDR
  {
    var y := SendReg(x);
    assert y & NOT_TX_OWNED == x & NOT_TX_OWNED;
    assert EP_TYPE & NOT_TX_OWNED == EP_TYPE;
  }

  /** Neither transmit update touches the receive status or flag, and
      re-arming reception touches neither transmit field. */
  lemma HalvesIndependent(x: bv16)
    ensures SendReg(x) & RX_STAT == x & RX_STAT && SendReg(x) & RX_CTR == x & RX_CTR
    ensures StallReg(x) & RX_STAT == x & RX_STAT && StallReg(x) & RX_CTR == x & RX_CTR
    ensures ReceiveReg(x) & TX_STAT == x & TX_STAT && ReceiveReg(x) & TX_CTR == x & TX_CTR
  {
    assert SendReg(x) & NOT_TX_OWNED == x & NOT_TX_OWNED;
    assert StallReg(x) & NOT_TX_OWNED == x & NOT_TX_OWNED;
    assert ReceiveReg(x) & NOT_RX_OWNED == x & NOT_RX_OWNED;
  }

  /** A bus reset reinitialises the controller side but, as written, keeps
      the loop's mode and staged address: the device is enabled at address 0
      and endpoint 0 becomes a control endpoint, receiving if the controller
      had cleared its toggles. */
  lemma StepAfterReset(d: Device)
    requires d.istr & ISTR_RESET != 0
    ensures Step(d).mode == d.mode && Step(d).address == d.address
    ensures Step(d).daddr == DADDR_EF && Step(d).istr == 0
    ensures Step(d).ep0 == ControlReg(d.ep0)
    ensures d.ep0 & TOGGLE_BITS == 0 ==>
      Step(d).ep0 & RX_STAT == RX_STAT_VALID && Step(d).ep0 & TX_STAT == TX_STAT_DISABLED
    ensures d.Wf() && d.ep1 & TX_CTR == 0 ==> ControlBuffersInstalled(Step(d).pma)
  {
    var u := UsbSetup(d);
    assert ResetPhase(d) == u;
    assert ControlPhase(u) == u;
  }

  /** Without a reset, the device address changes only when the snapshot
      shows a completed IN transfer, and then to the staged address with the
      loop back in Idle. */
  lemma StepAddressChanges(d: Device)
    requires d.istr & ISTR_RESET == 0
    ensures Step(d).daddr == d.daddr
      || (d.ep0 & TX_CTR != 0 && Step(d).daddr == DADDR_EF | Step(d).address as bv16
          && Step(d).mode == Idle)
  {
    var received := if d.ep0 & RX_CTR != 0 then ControlReceived(d, d.ep0) else d;
    assert ControlPhase(d) == if d.ep0 & TX_CTR != 0 then ControlTransmitted(received) else received;
  }

  /** The status stage of SET_ADDRESS completed: the staged address takes
      effect, the loop returns to Idle and endpoint 0 stalls further INs. */
  lemma StepCommitsAddress(d: Device)
    requires d.istr & ISTR_RESET == 0
    requires d.ep0 & RX_CTR == 0 && d.ep0 & TX_CTR != 0
    requires d.mode == SetAddress
    ensures Step(d).daddr == DADDR_EF | d.address as bv16
    ensures Step(d).mode == Idle && Step(d).address == d.address
    ensures Step(d).ep0 & TX_STAT == TX_STAT_STALL
  {
    assert ControlPhase(d) == ControlTransmitted(d);
  }

  /** Whatever arrived on endpoint 0, the iteration ends with reception
      re-armed and the receive flag cleared. */
  lemma StepRearmsControlReception(d: Device)
    requires d.istr & ISTR_RESET == 0
    requires d.ep0 & RX_CTR != 0
    ensures Step(d).ep0 & RX_STAT == RX_STAT_VALID && Step(d).ep0 & RX_CTR == 0
  {
    var received := ControlReceived(d, d.ep0);
    if d.ep0 & TX_CTR != 0 {
      assert ControlPhase(d) == ControlTransmitted(received);
      HalvesIndependent(received.ep0);
    } else {
      assert ControlPhase(d) == received;
    }
  }

  /** The host's status packet after GET_DESCRIPTOR returns the loop to
      Idle. */
  lemma StepStatusOutEndsDescriptor(d: Device)
    requires d.istr & ISTR_RESET == 0
    requires d.ep0 & RX_CTR != 0 && d.ep0 & SETUP == 0
    requires d.mode == GetDescriptor
    ensures Step(d).mode == Idle
  {
    var received := ControlReceived(d, d.ep0);
    assert received.mode == Idle;
  }

  /** A setup packet that is too short or asks for something the firmware
      does not answer is stalled, and the loop's state is untouched. */
  lemma StepStallsRejectedSetup(d: Device)
    requires d.istr & ISTR_RESET == 0
    requires d.ep0 & RX_CTR != 0 && d.ep0 & SETUP != 0 && d.ep0 & TX_CTR == 0
    requires ReceivedCount(d) < REQUEST_SIZE || !Answered(ReceivedRequest(d))
    ensures Step(d).mode == d.mode && Step(d).address == d.address && Step(d).daddr == d.daddr
    ensures Step(d).ep0 & TX_STAT == TX_STAT_STALL
    ensures Step(d).ep0 & RX_STAT == RX_STAT_VALID
  {
    var handled := ControlSetup(d);
    assert handled == UsbSendStall(d);
    assert ControlPhase(d) == UsbReceive(handled, Ep0);
    HalvesIndependent(handled.ep0);
  }

  /** As written, the IN branch tests the snapshot taken before the setup
      packet was handled. When a SET_ADDRESS arrives while the flag of an
      earlier IN transfer is still set, the address is committed in the same
      iteration, before its status stage, and the status stage is stalled. */
  lemma StepStaleSnapshotCommitsEarly(d: Device)
    requires d.istr & ISTR_RESET == 0
    requires d.ep0 & RX_CTR != 0 && d.ep0 & SETUP != 0 && d.ep0 & TX_CTR != 0
    requires ReceivedCount(d) >= REQUEST_SIZE
    requires ReceivedRequest(d).requestType == STANDARD_OUT_DEVICE
    requires ReceivedRequest(d).request == SET_ADDRESS
    ensures Step(d).daddr == DADDR_EF | Lo(ReceivedRequest(d).value) as bv16
    ensures Step(d).mode == Idle
    ensures Step(d).ep0 & TX_STAT == TX_STAT_STALL
  {
    var req := ReceivedRequest(d);
    var received := UsbReceive(Dispatch(d, req), Ep0);
    assert received.mode == SetAddress && received.address == Lo(req.value);
    assert ControlPhase(d) == ControlTransmitted(received);
  }

  /** The same stale snapshot loses a descriptor: when a GET_DESCRIPTOR setup
      and an IN completion are reported together, the transmit branch sees
      GET_DESCRIPTOR mode and replaces the descriptor just queued with a
      zero-length packet, whether or not endpoint 1 completes in the same
      iteration. */
  lemma StepStaleSnapshotLosesDescriptor(d: Device)
    requires d.istr & ISTR_RESET == 0
    requires d.Wf()
    requires d.ep0 & RX_CTR != 0 && d.ep0 & SETUP != 0 && d.ep0 & TX_CTR != 0
    requires Installed(d.pma) || d.ep1 & TX_CTR == 0
    requires ReceivedCount(d) >= REQUEST_SIZE
    requires ReceivedRequest(d).requestType == STANDARD_IN_DEVICE
    requires ReceivedRequest(d).request == GET_DESCRIPTOR
    requires KnownDescriptor(Hi(ReceivedRequest(d).value))
    ensures Step(d).mode == GetDescriptor
    ensures Step(d).ep0 & TX_STAT == TX_STAT_VALID
    ensures Transmitted(Step(d).pma, Ep0) == []
  {
    var req := ReceivedRequest(d);
    var received := UsbReceive(Dispatch(d, req), Ep0);
    assert received.mode == GetDescriptor;
    var c := ControlTransmitted(received);
    assert ControlPhase(d) == c;
    if Installed(d.pma) {
      assert Installed(c.pma);
      BulkKeepsEp0Packet(c);
    } else {
      QuietBulkKeepsControl(c);
    }
  }

  /** A full-length setup packet with no IN completion pending: the
      control phase is the request's answer with reception re-armed. */
  lemma ControlPhaseAnswersSetup(d: Device)
    requires d.ep0 & RX_CTR != 0 && d.ep0 & SETUP != 0 && d.ep0 & TX_CTR == 0
    requires ReceivedCount(d) >= REQUEST_SIZE
    ensures ControlPhase(d) == UsbReceive(Dispatch(d, ReceivedRequest(d)), Ep0)
  {
  }

  /** A served GET_DESCRIPTOR leaves the descriptor, cut to wLength, in the
      transmit buffer at the end of the iteration. */
  lemma StepAnswersGetDescriptor(d: Device)
    requires d.istr & ISTR_RESET == 0
    requires ControlBuffersInstalled(d.pma)
    requires d.ep0 & RX_CTR != 0 && d.ep0 & SETUP != 0 && d.ep0 & TX_CTR == 0
    requires BulkBuffersInstalled(d.pma) || d.ep1 & TX_CTR == 0
    requires ReceivedCount(d) >= REQUEST_SIZE
    requires ReceivedRequest(d).requestType == STANDARD_IN_DEVICE
    requires ReceivedRequest(d).request == GET_DESCRIPTOR
    requires KnownDescriptor(Hi(ReceivedRequest(d).value))
    ensures Step(d).mode == GetDescriptor
    ensures Step(d).ep0 & TX_STAT == TX_STAT_VALID
    ensures Transmitted(Step(d).pma, Ep0) == DescriptorBytes(Hi(ReceivedRequest(d).value))
      [..Min(|DescriptorBytes(Hi(ReceivedRequest(d).value))|, ReceivedRequest(d).length as int)]
  {
    var req := ReceivedRequest(d);
    var answered := Dispatch(d, req);
    GetDescriptorSendsPrefix(d, req);
    DispatchArmsOrStalls(d, req);
    HalvesIndependent(answered.ep0);
    ControlPhaseAnswersSetup(d);
    var c := UsbReceive(answered, Ep0);
    if BulkBuffersInstalled(d.pma) {
      BulkKeepsEp0Packet(c);
    } else {
      QuietBulkKeepsControl(c);
    }
  }

  /** With every buffer where the layout puts it, the bulk phase leaves
      endpoint 0, the loop's state and a packet of at most a buffer's size
      queued on endpoint 0 alone: endpoint 1's packet goes to its own
      buffer. */
  lemma BulkKeepsEp0Packet(c: Device)
    requires Installed(c.pma)
    requires |Transmitted(c.pma, Ep0)| <= EP0_TX_BUFFER.size
    ensures BulkPhase(c).ep0 == c.ep0 && BulkPhase(c).mode == c.mode
    ensures Transmitted(BulkPhase(c).pma, Ep0) == Transmitted(c.pma, Ep0)
  {
    Ep1PacketKeepsEp0Packet(c.pma, BulkPhase(c).pma);
  }

  /** Rewriting endpoint 1's count word and buffer leaves a packet of at most
      a buffer's size queued on endpoint 0 as it was. */
  lemma Ep1PacketKeepsEp0Packet(p: seq<bv16>, q: seq<bv16>)
    requires ControlBuffersInstalled(p) && |q| == |p|
    requires |Transmitted(p, Ep0)| <= EP0_TX_BUFFER.size
    requires forall k | 0 <= k < |p| && k != TxCountSlot(1) && !EP1_TX_BUFFER.Contains(k) ::
      q[k] == p[k]
    ensures Transmitted(q, Ep0) == Transmitted(p, Ep0)
  {
    var n := Ep0.Number();
    assert n == 0;
    var count := (Read(p, TxCountSlot(n)) & COUNT_MASK) as nat;
    assert q[TxAddrSlot(n)] == p[TxAddrSlot(n)];
    assert q[TxCountSlot(n)] == p[TxCountSlot(n)];
    forall i | 0 <= i < HalfwordCount(count)
      ensures Read(p, TxStart(p, Ep0) + 2 * i) == Read(q, TxStart(p, Ep0) + 2 * i)
    {
      var k := EP0_TX_BUFFER.offset + 2 * i;
      assert k < EP0_TX_BUFFER.End();
      assert q[k] == p[k];
    }
    TransmittedFrame(p, q, Ep0);
  }

  /** With no bulk IN completion pending, the bulk phase leaves endpoint 0,
      the loop's state and the packet memory alone. */
  lemma QuietBulkKeepsControl(c: Device)
    requires c.ep1 & TX_CTR == 0
    ensures BulkPhase(c).ep0 == c.ep0 && BulkPhase(c).mode == c.mode
    ensures Transmitted(BulkPhase(c).pma, Ep0) == Transmitted(c.pma, Ep0)
  {
    assert BulkPhase(c).pma == c.pma;
  }

  /** The control phase answers a SET_CONFIGURATION, the one request that
      reconfigures the bulk endpoints. */
  predicate AnswersSetConfiguration(c: Device)
  {
    && c.ep0 & RX_CTR != 0 && c.ep0 & SETUP != 0
    && ReceivedCount(c) >= REQUEST_SIZE
    && IsSetConfiguration(ReceivedRequest(c))
  }

  /** The iteration's control phase, after any bus reset, answers a
      SET_CONFIGURATION. */
  predicate ConfiguresBulk(d: Device)
  {
    AnswersSetConfiguration(ResetPhase(d))
  }

  /** The control phase leaves the bulk endpoint registers alone, except
      that SET_CONFIGURATION sets them up again and arms endpoint 1. */
  lemma ControlPhaseBulkRegisters(c: Device)
    ensures ControlPhase(c).ep1
      == (if AnswersSetConfiguration(c) then SendReg(BulkInReg(c.ep1)) else c.ep1)
    ensures ControlPhase(c).ep2
      == (if AnswersSetConfiguration(c) then BulkOutReg(c.ep2) else c.ep2)
  {
    var received := if c.ep0 & RX_CTR != 0 then ControlReceived(c, c.ep0) else c;
    if c.ep0 & RX_CTR != 0 {
      var handled := if c.ep0 & SETUP != 0 then ControlSetup(c) else ControlOut(c);
      assert received == UsbReceive(handled, Ep0);
      if AnswersSetConfiguration(c) {
        assert handled == Dispatch(c, ReceivedRequest(c)) == SetConfigurationAnswer(c);
      }
    }
    assert received.ep1 == (if AnswersSetConfiguration(c) then SendReg(BulkInReg(c.ep1)) else c.ep1);
    assert received.ep2 == (if AnswersSetConfiguration(c) then BulkOutReg(c.ep2) else c.ep2);
  }

  /** When the control phase answers SET_CONFIGURATION, the first bulk
      packet is what endpoint 1 has queued at its end. */
  lemma ControlPhaseQueuesBulk(c: Device)
    requires c.Wf()
    requires AnswersSetConfiguration(c)
    ensures Transmitted(ControlPhase(c).pma, Ep1) == DEVICE_BYTES[..BULK_PAYLOAD_SIZE]
  {
    var req := ReceivedRequest(c);
    SetConfigurationQueuesBulk(c, req);
    var received := UsbReceive(Dispatch(c, req), Ep0);
    assert ControlReceived(c, c.ep0) == received;
    if c.ep0 & TX_CTR != 0 {
      var r := ControlTransmitted(received);
      assert r.pma[TxAddrSlot(1)] == received.pma[TxAddrSlot(1)];
      assert r.pma[TxCountSlot(1)] == received.pma[TxCountSlot(1)];
      TransmittedFrame(received.pma, r.pma, Ep1);
    }
  }

  /** A bus reset keeps the bulk buffers, and an endpoint 0 reception is
      only reported once endpoint 0's own buffers are in place. */
  lemma ResetKeepsBulkBuffers(d: Device)
    requires BulkBuffersInstalled(d.pma)
    requires ControlBuffersInstalled(d.pma) || d.ep0 & RX_CTR == 0
    ensures BulkBuffersInstalled(ResetPhase(d).pma)
    ensures ControlBuffersInstalled(ResetPhase(d).pma) || ResetPhase(d).ep0 & RX_CTR == 0
  {
    if d.istr & ISTR_RESET != 0 {
      var r := UsbSetup(d);
      assert r.pma[TxAddrSlot(1)] == d.pma[TxAddrSlot(1)];
      assert r.pma[RxAddrSlot(2)] == d.pma[RxAddrSlot(2)];
    }
  }

  /** The control phase keeps the bulk buffers where they are: the one
      request that rewrites their table entries, SET_CONFIGURATION, writes the
      same offsets again. */
  lemma ControlPhaseKeepsBulkBuffers(c: Device)
    requires BulkBuffersInstalled(c.pma)
    requires ControlBuffersInstalled(c.pma) || c.ep0 & RX_CTR == 0
    ensures BulkBuffersInstalled(ControlPhase(c).pma)
  {
    if !ControlBuffersInstalled(c.pma) {
      if c.ep0 & TX_CTR != 0 {
        var r := ControlTransmitted(c);
        assert r.pma[TxAddrSlot(1)] == c.pma[TxAddrSlot(1)];
        assert r.pma[RxAddrSlot(2)] == c.pma[RxAddrSlot(2)];
      }
    }
  }

  /** Once endpoint 1's packet has gone out, the first four bytes are queued
      again and transmission re-armed, whatever endpoint 0 does in the same
      iteration: a SET_CONFIGURATION answered there queues the same packet. */
  lemma StepRearmsBulkIn(d: Device)
    requires BulkBuffersInstalled(d.pma)
    requires ControlBuffersInstalled(d.pma) || d.ep0 & RX_CTR == 0
    requires d.ep1 & TX_CTR != 0
    ensures Transmitted(Step(d).pma, Ep1) == DEVICE_BYTES[..BULK_PAYLOAD_SIZE]
    ensures Step(d).ep1 == SendReg(if ConfiguresBulk(d) then BulkInReg(d.ep1) else d.ep1)
    ensures Step(d).ep1 & TX_STAT == TX_STAT_VALID && Step(d).ep1 & TX_CTR == 0
  {
    var reset := ResetPhase(d);
    assert reset.ep1 == d.ep1;
    var c := ControlPhase(reset);
    ControlPhaseBulkRegisters(reset);
    ResetKeepsBulkBuffers(d);
    if !ConfiguresBulk(d) {
      ControlPhaseKeepsBulkBuffers(reset);
    } else {
      ControlPhaseQueuesBulk(reset);
      var x := SendReg(BulkInReg(d.ep1));
      assert x & TX_CTR == 0;
      assert Step(d).pma == c.pma;
    }
  }

  /** Once endpoint 2 has received a packet, reception is re-armed with the
      rest of its register unchanged, whatever endpoint 0 does in the same
      iteration, unless a SET_CONFIGURATION answered there has just set the
      endpoint up again (armed to receive). */
  lemma StepRearmsBulkOut(d: Device)
    requires d.ep2 & RX_CTR != 0
    ensures Step(d).ep2 & RX_STAT == RX_STAT_VALID && Step(d).ep2 & RX_CTR == 0
    ensures Step(d).ep2 == (if ConfiguresBulk(d) then BulkOutReg(d.ep2) else ReceiveReg(d.ep2))
    ensures !ConfiguresBulk(d) ==> Step(d).ep2 & NOT_RX_OWNED == d.ep2 & NOT_RX_OWNED
  {
    var reset := ResetPhase(d);
    assert reset.ep2 == d.ep2;
    ControlPhaseBulkRegisters(reset);
    if ConfiguresBulk(d) {
      var x := BulkOutReg(d.ep2);
      assert x & RX_CTR == 0;
    }
  }

  /** An iteration with no reset and no flag raised changes nothing. */
  lemma StepQuiet(d: Device)
    requires d.istr & ISTR_RESET == 0
    requires d.ep0 & (RX_CTR | TX_CTR) == 0 && d.ep1 & TX_CTR == 0 && d.ep2 & RX_CTR == 0
    ensures Step(d) == d
  {
    assert d.ep0 & RX_CTR == 0 && d.ep0 & TX_CTR == 0;
    assert ControlPhase(d) == d;
  }

  /** A setup packet the host put in endpoint 0's receive buffer, with the
      controller's stride, is the request the firmware decodes. */
  lemma ReceivedRequestRoundTrip(d: Device, req: Request)
    requires RxAddrSlot(0) < RxStart(d.pma, Ep0)
    requires RxStart(d.pma, Ep0) + REQUEST_SIZE <= |d.pma|
    ensures ReceivedRequest(d.(pma := WriteHalfwords(d.pma, RxStart(d.pma, Ep0),
      Halfwords(Encode(req), REQUEST_SIZE / 2)))) == req
  {
    var start := RxStart(d.pma, Ep0);
    var hs := Halfwords(Encode(req), REQUEST_SIZE / 2);
    var e := d.(pma := WriteHalfwords(d.pma, start, hs));
    assert !Strided(start, |hs|, RxAddrSlot(0));
    assert RxStart(e.pma, Ep0) == start;
    WriteThenRead(d.pma, start, hs);
    UnpackHalfwords(Encode(req), REQUEST_SIZE / 2);
    assert Encode(req)[..REQUEST_SIZE] == Encode(req);
  }
}

=== FILE: descriptors.dfy ===
/** The descriptor tables the device serves: packed, little-endian records
    laid out as sections 9.6.1 (device), 9.6.3 (configuration), 9.6.5
    (interface) and 9.6.6 (endpoint) of the USB 2.0 specification prescribe.
    Each record has an encoder to its wire bytes and a decoder back, and the
    firmware's two constant tables are given by value. */
module Descriptors {
  import opened Bytes
  import opened SetupRequest

  // Descriptor types
  const DESCRIPTOR_DEVICE: bv8 := 0x01
  const DESCRIPTOR_CONFIGURATION: bv8 := 0x02
  const DESCRIPTOR_INTERFACE: bv8 := 0x04
  const DESCRIPTOR_ENDPOINT: bv8 := 0x05

  // Endpoint transfer types (bmAttributes of an endpoint descriptor)
  const ENDPOINT_CONTROL: bv8 := 0
  const ENDPOINT_ISOCHRONOUS: bv8 := 1
  const ENDPOINT_BULK: bv8 := 2
  const ENDPOINT_INTERRUPT: bv8 := 3

  // Packed sizes of the records
  const DEVICE_DESCRIPTOR_SIZE: nat := 18
  const CONFIG_DESCRIPTOR_SIZE: nat := 9
  const INTERFACE_DESCRIPTOR_SIZE: nat := 9
  const ENDPOINT_DESCRIPTOR_SIZE: nat := 7
  /** The configuration bundle: header, one interface, two endpoints. */
  const CONFIGURATION_SIZE: nat :=
    CONFIG_DESCRIPTOR_SIZE + INTERFACE_DESCRIPTOR_SIZE + 2 * ENDPOINT_DESCRIPTOR_SIZE

  datatype DeviceDescriptor = DeviceDescriptor(
    bLength: bv8,
    bDescriptorType: bv8,
    bcdUSB: bv16,
    bDeviceClass: bv8,
    bDeviceSubClass: bv8,
    bDeviceProtocol: bv8,
    bMaxPacketSize0: bv8,
    idVendor: bv16,
    idProduct: bv16,
    bcdDevice: bv16,
    iManufacturer: bv8,
    iProduct: bv8,
    iSerialNumber: bv8,
    bNumConfigurations: bv8)

  datatype ConfigDescriptor = ConfigDescriptor(
    bLength: bv8,
    bDescriptorType: bv8,
    wTotalLength: bv16,
    bNumInterfaces: bv8,
    bConfigurationValue: bv8,
    iConfiguration: bv8,
    bmAttributes: bv8,
    bMaxPower: bv8)

  datatype InterfaceDescriptor = InterfaceDescriptor(
    bLength: bv8,
    bDescriptorType: bv8,
    bInterfaceNumber: bv8,
    bAlternateSetting: bv8,
    bNumEndpoints: bv8,
    bInterfaceClass: bv8,
    bInterfaceSubClass: bv8,
    bInterfaceProtocol: bv8,
    iInterface: bv8)

  datatype EndpointDescriptor = EndpointDescriptor(
    bLength: bv8,
    bDescriptorType: bv8,
    bEndpointAddress: bv8,
    bmAttributes: bv8,
    wMaxPacketSize: bv16,
    bInterval: bv8)

  /** What GET_DESCRIPTOR(CONFIGURATION) returns: the configuration header
      followed by everything it announces. */
  datatype Configuration = Configuration(
    config: ConfigDescriptor,
    iface: InterfaceDescriptor,
    endpoint1: EndpointDescriptor,
    endpoint2: EndpointDescriptor)

  function EncodeDevice(d: DeviceDescriptor): (b: seq<bv8>)
    ensures |b| == DEVICE_DESCRIPTOR_SIZE
    ensures DecodeDevice(b) == d
  {
    JoinSplit(d.bcdUSB);
    JoinSplit(d.idVendor);
    JoinSplit(d.idProduct);
    JoinSplit(d.bcdDevice);
    [d.bLength, d.bDescriptorType] + Le16(d.bcdUSB)
    + [d.bDeviceClass, d.bDeviceSubClass, d.bDeviceProtocol, d.bMaxPacketSize0]
    + Le16(d.idVendor) + Le16(d.idProduct) + Le16(d.bcdDevice)
    + [d.iManufacturer, d.iProduct, d.iSerialNumber, d.bNumConfigurations]
  }

  function DecodeDevice(b: seq<bv8>): DeviceDescriptor
    requires |b| == DEVICE_DESCRIPTOR_SIZE
  {
    DeviceDescriptor(b[0], b[1], Join(b[2], b[3]), b[4], b[5], b[6], b[7],
      Join(b[8], b[9]), Join(b[10], b[11]), Join(b[12], b[13]), b[14], b[15], b[16], b[17])
  }

  lemma DecodeEncodeDevice(b: seq<bv8>)
    requires |b| == DEVICE_DESCRIPTOR_SIZE
    ensures EncodeDevice(DecodeDevice(b)) == b
  {
  }

  function EncodeConfig(c: ConfigDescriptor): (b: seq<bv8>)
    ensures |b| == CONFIG_DESCRIPTOR_SIZE
    ensures DecodeConfig(b) == c
  {
    JoinSplit(c.wTotalLength);
    [c.bLength, c.bDescriptorType] + Le16(c.wTotalLength)
    + [c.bNumInterfaces, c.bConfigurationValue, c.iConfiguration, c.bmAttributes, c.bMaxPower]
  }

  function DecodeConfig(b: seq<bv8>): ConfigDescriptor
    requires |b| == CONFIG_DESCRIPTOR_SIZE
  {
    ConfigDescriptor(b[0], b[1], Join(b[2], b[3]), b[4], b[5], b[6], b[7], b[8])
  }

  lemma DecodeEncodeConfig(b: seq<bv8>)
    requires |b| == CONFIG_DESCRIPTOR_SIZE
    ensures EncodeConfig(DecodeConfig(b)) == b
  {
  }

  function EncodeInterface(i: InterfaceDescriptor): (b: seq<bv8>)
    ensures |b| == INTERFACE_DESCRIPTOR_SIZE
    ensures DecodeInterface(b) == i
  {
    [i.bLength, i.bDescriptorType, i.bInterfaceNumber, i.bAlternateSetting, i.bNumEndpoints,
     i.bInterfaceClass, i.bInterfaceSubClass, i.bInterfaceProtocol, i.iInterface]
  }

  function DecodeInterface(b: seq<bv8>): InterfaceDescriptor
    requires |b| == INTERFACE_DESCRIPTOR_SIZE
  {
    InterfaceDescriptor(b[0], b[1], b[2], b[3], b[4], b[5], b[6], b[7], b[8])
  }

  lemma DecodeEncodeInterface(b: seq<bv8>)
    requires |b| == INTERFACE_DESCRIPTOR_SIZE
    ensures EncodeInterface(DecodeInterface(b)) == b
  {
  }

  function EncodeEndpoint(e: EndpointDescriptor): (b: seq<bv8>)
    ensures |b| == ENDPOINT_DESCRIPTOR_SIZE
    ensures DecodeEndpoint(b) == e
  {
    JoinSplit(e.wMaxPacketSize);
    [e.bLength, e.bDescriptorType, e.bEndpointAddress, e.bmAttributes]
    + Le16(e.wMaxPacketSize) + [e.bInterval]
  }

  function DecodeEndpoint(b: seq<bv8>): EndpointDescriptor
    requires |b| == ENDPOINT_DESCRIPTOR_SIZE
  {
    EndpointDescriptor(b[0], b[1], b[2], b[3], Join(b[4], b[5]), b[6])
  }

  lemma DecodeEncodeEndpoint(b: seq<bv8>)
    requires |b| == ENDPOINT_DESCRIPTOR_SIZE
    ensures EncodeEndpoint(DecodeEndpoint(b)) == b
  {
  }

  /** Offsets of the records inside the configuration bundle. */
  const INTERFACE_OFFSET: nat := CONFIG_DESCRIPTOR_SIZE
  const ENDPOINT1_OFFSET: nat := INTERFACE_OFFSET + INTERFACE_DESCRIPTOR_SIZE
  const ENDPOINT2_OFFSET: nat := ENDPOINT1_OFFSET + ENDPOINT_DESCRIPTOR_SIZE

  /** The bundle's records are packed back to back, with no padding. */
  function EncodeConfiguration(c: Configuration): (b: seq<bv8>)
    ensures |b| == CONFIGURATION_SIZE
    ensures DecodeConfiguration(b) == c
  {
    var b := EncodeConfig(c.config) + EncodeInterface(c.iface)
      + EncodeEndpoint(c.endpoint1) + EncodeEndpoint(c.endpoint2);
    assert b[..INTERFACE_OFFSET] == EncodeConfig(c.config);
    assert b[INTERFACE_OFFSET..ENDPOINT1_OFFSET] == EncodeInterface(c.iface);
    assert b[ENDPOINT1_OFFSET..ENDPOINT2_OFFSET] == EncodeEndpoint(c.endpoint1);
    assert b[ENDPOINT2_OFFSET..] == EncodeEndpoint(c.endpoint2);
    b
  }

  function DecodeConfiguration(b: seq<bv8>): Configuration
    requires |b| == CONFIGURATION_SIZE
  {
    Configuration(
      DecodeConfig(b[..INTERFACE_OFFSET]),
      DecodeInterface(b[INTERFACE_OFFSET..ENDPOINT1_OFFSET]),
      DecodeEndpoint(b[ENDPOINT1_OFFSET..ENDPOINT2_OFFSET]),
      DecodeEndpoint(b[ENDPOINT2_OFFSET..]))
  }

  lemma DecodeEncodeConfiguration(b: seq<bv8>)
    requires |b| == CONFIGURATION_SIZE
    ensures EncodeConfiguration(DecodeConfiguration(b)) == b
  {
    DecodeEncodeConfig(b[..INTERFACE_OFFSET]);
    DecodeEncodeInterface(b[INTERFACE_OFFSET..ENDPOINT1_OFFSET]);
    DecodeEncodeEndpoint(b[ENDPOINT1_OFFSET..ENDPOINT2_OFFSET]);
    DecodeEncodeEndpoint(b[ENDPOINT2_OFFSET..]);
    assert b == b[..INTERFACE_OFFSET] + b[INTERFACE_OFFSET..ENDPOINT1_OFFSET]
      + b[ENDPOINT1_OFFSET..ENDPOINT2_OFFSET] + b[ENDPOINT2_OFFSET..];
  }

  /** The device descriptor the firmware serves (vendor 0x0483, product
      0x5722, no class, 64-byte control packets, one configuration). */
  const USB_DEVICE: DeviceDescriptor := DeviceDescriptor(
    bLength := DEVICE_DESCRIPTOR_SIZE as bv8,
    bDescriptorType := DESCRIPTOR_DEVICE,
    bcdUSB := 0x0200,
    bDeviceClass := 0xFF,
    bDeviceSubClass := 0xFF,
    bDeviceProtocol := 0xFF,
    bMaxPacketSize0 := 64,
    idVendor := 0x0483,
    idProduct := 0x5722,
    bcdDevice := 0x0100,
    iManufacturer := 0,
    iProduct := 0,
    iSerialNumber := 0,
    bNumConfigurations := 1)

  /** The configuration the firmware serves: one vendor-specific interface
      with bulk IN endpoint 1 and bulk OUT endpoint 2, 16-byte packets. */
  const USB_CONFIGURATION: Configuration := Configuration(
    ConfigDescriptor(
      bLength := CONFIG_DESCRIPTOR_SIZE as bv8,
      bDescriptorType := DESCRIPTOR_CONFIGURATION,
      wTotalLength := CONFIGURATION_SIZE as bv16,
      bNumInterfaces := 1,
      bConfigurationValue := 1,
      iConfiguration := 0,
      bmAttributes := 0x80,
      bMaxPower := 50),
    InterfaceDescriptor(
      bLength := INTERFACE_DESCRIPTOR_SIZE as bv8,
      bDescriptorType := DESCRIPTOR_INTERFACE,
      bInterfaceNumber := 0,
      bAlternateSetting := 0,
      bNumEndpoints := 2,
      bInterfaceClass := 0xFF,
      bInterfaceSubClass := 0xFF,
      bInterfaceProtocol := 0xFF,
      iInterface := 0),
    EndpointDescriptor(
      bLength := ENDPOINT_DESCRIPTOR_SIZE as bv8,
      bDescriptorType := DESCRIPTOR_ENDPOINT,
      bEndpointAddress := DIRECTION_IN | 1,
      bmAttributes := ENDPOINT_BULK,
      wMaxPacketSize := 16,
      bInterval := 1),
    EndpointDescriptor(
      bLength := ENDPOINT_DESCRIPTOR_SIZE as bv8,
      bDescriptorType := DESCRIPTOR_ENDPOINT,
      bEndpointAddress := DIRECTION_OUT | 2,
      bmAttributes := ENDPOINT_BULK,
      wMaxPacketSize := 16,
      bInterval := 1))

  /** The device descriptor as it lies in flash and goes on the wire. */
  const DEVICE_BYTES: seq<bv8> := EncodeDevice(USB_DEVICE)

  /** The configuration bundle as it lies in flash and goes on the wire. */
  const CONFIGURATION_BYTES: seq<bv8> := EncodeConfiguration(USB_CONFIGURATION)

  /** The device descriptor byte for byte: 18 bytes whose first byte is its
      own length, with bcdUSB 2.00, idVendor, idProduct and bcdDevice low
      byte first. */
  lemma DeviceBytesLayout()
    ensures |DEVICE_BYTES| == 18 && DEVICE_BYTES[0] as nat == |DEVICE_BYTES|
    ensures DEVICE_BYTES == [18, 0x01, 0x00, 0x02, 0xFF, 0xFF, 0xFF, 64,
                             0x83, 0x04, 0x22, 0x57, 0x00, 0x01, 0, 0, 0, 1]
  {
  }

  /** The configuration bundle byte for byte: 9 + 9 + 7 + 7 = 32 bytes,
      wTotalLength (bytes 2 and 3, low first) equal to the bundle's size, and
      every record's bLength equal to its own size. */
  lemma ConfigurationBytesLayout()
    ensures |CONFIGURATION_BYTES| == 32
    ensures Join(CONFIGURATION_BYTES[2], CONFIGURATION_BYTES[3]) as nat == |CONFIGURATION_BYTES|
    ensures CONFIGURATION_BYTES[0] as nat == CONFIG_DESCRIPTOR_SIZE
    ensures CONFIGURATION_BYTES[INTERFACE_OFFSET] as nat == INTERFACE_DESCRIPTOR_SIZE
    ensures CONFIGURATION_BYTES[ENDPOINT1_OFFSET] as nat == ENDPOINT_DESCRIPTOR_SIZE
    ensures CONFIGURATION_BYTES[ENDPOINT2_OFFSET] as nat == ENDPOINT_DESCRIPTOR_SIZE
    ensures CONFIGURATION_BYTES == [
      9, 0x02, 32, 0, 1, 1, 0, 0x80, 50,
      9, 0x04, 0, 0, 2, 0xFF, 0xFF, 0xFF, 0,
      7, 0x05, 0x81, 0x02, 16, 0, 1,
      7, 0x05, 0x02, 0x02, 16, 0, 1]
  {
  }
}

=== FILE: driver.dfy ===
/** The device state the polling loop works on and the firmware's helper
    routines usbSetup, usbSetupEndpoints, usbSend, usbSendStall and
    usbReceive, each as a function from the state before the call to the
    state after it. */
module Driver {
  import opened Bytes
  import opened Registers
  import opened PacketMemory

  /** What the completion of the current control stage should do. */
  datatype UsbMode = Idle | SetAddress | AwaitTx | GetDescriptor

  /** The three endpoints the firmware drives: control endpoint 0, bulk IN
      endpoint 1 and bulk OUT endpoint 2. */
  datatype Endpoint = Ep0 | Ep1 | Ep2 {
    function Number(): nat
    {
      match this
      case Ep0 => 0
      case Ep1 => 1
      case Ep2 => 2
    }
  }

  /** The controller's registers and packet memory, and the two variables of
      the polling loop (`usbMode` and the staged `usbAddress`). */
  datatype Device = Device(
    istr: bv16,       // interrupt status register
    btable: bv16,     // buffer descriptor table offset register
    daddr: bv16,      // device address register
    ep0: bv16,        // endpoint registers
    ep1: bv16,
    ep2: bv16,
    pma: seq<bv16>,   // packet memory
    mode: UsbMode,
    address: bv8)
  {
    predicate Wf()
    {
      |pma| == PMA_SIZE
    }

    function Reg(ep: Endpoint): bv16
    {
      match ep
      case Ep0 => ep0
      case Ep1 => ep1
      case Ep2 => ep2
    }

    function WithReg(ep: Endpoint, v: bv16): (d: Device)
      ensures d.Reg(ep) == v
      ensures forall e: Endpoint | e != ep :: d.Reg(e) == Reg(e)
      ensures d.istr == istr && d.btable == btable && d.daddr == daddr && d.pma == pma
      ensures d.mode == mode && d.address == address
    {
      match ep
      case Ep0 => this.(ep0 := v)
      case Ep1 => this.(ep1 := v)
      case Ep2 => this.(ep2 := v)
    }
  }

  /** Reset flag of the interrupt status register. */
  const ISTR_RESET: bv16 := 0x0400
  /** Enable bit of the device address register; the address is bits 6..0. */
  const DADDR_EF: bv16 := 0x0080
  /** Byte-count field of a transmit- or receive-count entry. */
  const COUNT_MASK: bv16 := 0x03FF
  /** Byte counts the count field can hold are below this. */
  const COUNT_LIMIT: nat := 0x400

  /** Start of the endpoint's transmit buffer, as its table entry says. */
  function TxStart(pma: seq<bv16>, ep: Endpoint): nat
  {
    Read(pma, TxAddrSlot(ep.Number())) as nat
  }

  /** Start of the endpoint's receive buffer, as its table entry says. */
  function RxStart(pma: seq<bv16>, ep: Endpoint): nat
  {
    Read(pma, RxAddrSlot(ep.Number())) as nat
  }

  /** The bytes the controller sends on the endpoint's next IN transaction:
      as many as the transmit count says, from the transmit buffer. */
  function Transmitted(pma: seq<bv16>, ep: Endpoint): (bytes: seq<bv8>)
    ensures |bytes| == (Read(pma, TxCountSlot(ep.Number())) & COUNT_MASK) as nat
  {
    var count := (Read(pma, TxCountSlot(ep.Number())) & COUNT_MASK) as nat;
    Unpack(ReadHalfwords(pma, TxStart(pma, ep), HalfwordCount(count)))[..count]
  }

  /** Both endpoint-0 buffer addresses hold the layout's offsets. */
  predicate ControlBuffersInstalled(pma: seq<bv16>)
  {
    && |pma| == PMA_SIZE
    && TxStart(pma, Ep0) == EP0_TX_BUFFER.offset
    && RxStart(pma, Ep0) == EP0_RX_BUFFER.offset
  }

  /** The bulk endpoints' buffer addresses hold the layout's offsets. */
  predicate BulkBuffersInstalled(pma: seq<bv16>)
  {
    && |pma| == PMA_SIZE
    && TxStart(pma, Ep1) == EP1_TX_BUFFER.offset
    && RxStart(pma, Ep2) == EP2_RX_BUFFER.offset
  }

  /** The whole buffer table the firmware installs is in place. */
  predicate Installed(pma: seq<bv16>)
  {
    ControlBuffersInstalled(pma) && BulkBuffersInstalled(pma)
  }

  /** Every buffer offset of the layout fits a table entry unchanged. */
  lemma OffsetsFitEntries()
    ensures (EP0_TX_BUFFER.offset as bv16) as nat == EP0_TX_BUFFER.offset
    ensures (EP0_RX_BUFFER.offset as bv16) as nat == EP0_RX_BUFFER.offset
    ensures (EP1_TX_BUFFER.offset as bv16) as nat == EP1_TX_BUFFER.offset
    ensures (EP2_RX_BUFFER.offset as bv16) as nat == EP2_RX_BUFFER.offset
  {
  }

  /** usbSend(ep, data, size): copy `size` bytes into the endpoint's transmit
      buffer, set its transmit count, and arm transmission. `data` must hold
      the whole halfwords the copy reads. */
  function UsbSend(d: Device, ep: Endpoint, data: seq<bv8>, size: nat): (r: Device)
    requires 2 * HalfwordCount(size) <= |data|
    ensures r.Reg(ep) == SendReg(d.Reg(ep))
    ensures r.ep0 == (if ep == Ep0 then SendReg(d.ep0) else d.ep0)
    ensures r.ep1 == (if ep == Ep1 then SendReg(d.ep1) else d.ep1)
    ensures r.ep2 == (if ep == Ep2 then SendReg(d.ep2) else d.ep2)
    ensures r.istr == d.istr && r.btable == d.btable && r.daddr == d.daddr
    ensures r.mode == d.mode && r.address == d.address
    ensures |r.pma| == |d.pma|
    ensures TxCountSlot(ep.Number()) < |d.pma| ==>
      Read(r.pma, TxCountSlot(ep.Number())) == (size % 0x1_0000) as bv16
    ensures forall k | 0 <= k < |d.pma| && k != TxCountSlot(ep.Number())
      && !Strided(TxStart(d.pma, ep), HalfwordCount(size), k) :: r.pma[k] == d.pma[k]
  {
    var copied := WriteHalfwords(d.pma, TxStart(d.pma, ep), Halfwords(data, HalfwordCount(size)));
    var counted := Write(copied, TxCountSlot(ep.Number()), (size % 0x1_0000) as bv16);
    d.(pma := counted).WithReg(ep, SendReg(d.Reg(ep)))
  }

  /** usbSendStall(): answer the next IN on endpoint 0 with STALL. */
  function UsbSendStall(d: Device): (r: Device)
    ensures r.ep0 == StallReg(d.ep0)
    ensures r == d.(ep0 := r.ep0)
  {
    d.(ep0 := StallReg(d.ep0))
  }

  /** usbReceive(ep): re-arm reception on the endpoint. */
  function UsbReceive(d: Device, ep: Endpoint): (r: Device)
    ensures r.Reg(ep) == ReceiveReg(d.Reg(ep))
    ensures r.ep0 == (if ep == Ep0 then ReceiveReg(d.ep0) else d.ep0)
    ensures r.ep1 == (if ep == Ep1 then ReceiveReg(d.ep1) else d.ep1)
    ensures r.ep2 == (if ep == Ep2 then ReceiveReg(d.ep2) else d.ep2)
    ensures r.istr == d.istr && r.btable == d.btable && r.daddr == d.daddr && r.pma == d.pma
    ensures r.mode == d.mode && r.address == d.address
  {
    d.WithReg(ep, ReceiveReg(d.Reg(ep)))
  }

  /** usbSetup(): clear the interrupt flags, place the buffer table at 0,
      install endpoint 0's buffers (64 bytes each way), configure endpoint 0
      as a control endpoint and enable the device at address 0. The loop's
      variables are not touched. */
  function UsbSetup(d: Device): (r: Device)
    ensures r.istr == 0 && r.btable == 0
    ensures r.daddr == DADDR_EF
    ensures r.ep0 == ControlReg(d.ep0) && r.ep1 == d.ep1 && r.ep2 == d.ep2
    ensures r.mode == d.mode && r.address == d.address
    ensures |r.pma| == |d.pma|
    ensures d.Wf() ==> ControlBuffersInstalled(r.pma)
    ensures Installed(d.pma) ==> Installed(r.pma)
    ensures d.Wf() ==> RxCapacity(Read(r.pma, RxCountSlot(0))) == EP0_RX_BUFFER.size
    ensures forall k | 0 <= k < |d.pma| && k != TxAddrSlot(0) && k != RxAddrSlot(0)
      && k != RxCountSlot(0) :: r.pma[k] == d.pma[k]
  {
    var pma := Write(d.pma, TxAddrSlot(0), EP0_TX_BUFFER.offset as bv16);
    var pma := Write(pma, RxAddrSlot(0), EP0_RX_BUFFER.offset as bv16);
    var pma := Write(pma, RxCountSlot(0), EP0_RX_COUNT_INIT);
    RxCountsMatchLayout();
    OffsetsFitEntries();
    d.(istr := 0, btable := 0, pma := pma, ep0 := ControlReg(d.ep0), daddr := DADDR_EF | 0)
  }

  /** usbSetupEndpoints(): install the bulk buffers (16 bytes each) and
      configure endpoint 1 as a stalled bulk IN and endpoint 2 as a receiving
      bulk OUT endpoint, resetting their toggles. */
  function UsbSetupEndpoints(d: Device): (r: Device)
    ensures r.ep1 == BulkInReg(d.ep1) && r.ep2 == BulkOutReg(d.ep2) && r.ep0 == d.ep0
    ensures r.istr == d.istr && r.btable == d.btable && r.daddr == d.daddr
    ensures r.mode == d.mode && r.address == d.address
    ensures |r.pma| == |d.pma|
    ensures d.Wf() ==> BulkBuffersInstalled(r.pma)
    ensures Installed(d.pma) ==> Installed(r.pma)
    ensures d.Wf() ==> RxCapacity(Read(r.pma, RxCountSlot(2))) == EP2_RX_BUFFER.size
    ensures forall k | 0 <= k < |d.pma| && k != TxAddrSlot(1) && k != RxAddrSlot(2)
      && k != RxCountSlot(2) :: r.pma[k] == d.pma[k]
  {
    var pma := Write(d.pma, TxAddrSlot(1), EP1_TX_BUFFER.offset as bv16);
    var pma := Write(pma, RxAddrSlot(2), EP2_RX_BUFFER.offset as bv16);
    var pma := Write(pma, RxCountSlot(2), EP2_RX_COUNT_INIT);
    RxCountsMatchLayout();
    OffsetsFitEntries();
    d.(pma := pma, ep1 := BulkInReg(d.ep1), ep2 := BulkOutReg(d.ep2))
  }

  /** What usbSend puts in the transmit buffer is what the controller sends:
      the first `size` bytes of `data`, provided the buffer lies after the
      table entry and inside packet memory. */
  lemma SendTransmits(d: Device, ep: Endpoint, data: seq<bv8>, size: nat)
    requires 2 * HalfwordCount(size) <= |data|
    requires size < COUNT_LIMIT
    requires TxCountSlot(ep.Number()) < TxStart(d.pma, ep)
    requires TxStart(d.pma, ep) + 2 * HalfwordCount(size) <= |d.pma|
    ensures Transmitted(UsbSend(d, ep, data, size).pma, ep) == data[..size]
  {
    var r := UsbSend(d, ep, data, size);
    var n := HalfwordCount(size);
    var start := TxStart(d.pma, ep);
    SendCountsAndKeepsEntry(d, ep, data, size);
    SendCopies(d, ep, data, size);
    assert ReadHalfwords(r.pma, start, n) == Halfwords(data, n);
    UnpackHalfwords(data, n);
  }

  /** usbSend into a buffer past the table keeps the installed table. */
  lemma SendKeepsInstalled(d: Device, ep: Endpoint, data: seq<bv8>, size: nat)
    requires 2 * HalfwordCount(size) <= |data|
    ensures Installed(d.pma) && TxStart(d.pma, ep) >= BUFFER_TABLE.End() ==>
      Installed(UsbSend(d, ep, data, size).pma)
  {
    if Installed(d.pma) && TxStart(d.pma, ep) >= BUFFER_TABLE.End() {
      var r := UsbSend(d, ep, data, size);
      assert r.pma[TxAddrSlot(0)] == d.pma[TxAddrSlot(0)];
      assert r.pma[RxAddrSlot(0)] == d.pma[RxAddrSlot(0)];
      assert r.pma[TxAddrSlot(1)] == d.pma[TxAddrSlot(1)];
      assert r.pma[RxAddrSlot(2)] == d.pma[RxAddrSlot(2)];
    }
  }

  /** usbSend leaves the buffer address alone and sets the count field to
      the size. */
  lemma SendCountsAndKeepsEntry(d: Device, ep: Endpoint, data: seq<bv8>, size: nat)
    requires 2 * HalfwordCount(size) <= |data|
    requires size < COUNT_LIMIT
    requires TxCountSlot(ep.Number()) < TxStart(d.pma, ep) <= |d.pma|
    ensures TxStart(UsbSend(d, ep, data, size).pma, ep) == TxStart(d.pma, ep)
    ensures (Read(UsbSend(d, ep, data, size).pma, TxCountSlot(ep.Number())) & COUNT_MASK) as nat == size
  {
    assert !Strided(TxStart(d.pma, ep), HalfwordCount(size), TxAddrSlot(ep.Number()));
    CountField(size);
  }

  /** Every byte count up to the field's capacity survives truncation to the
      register width and masking with the count field. */
  lemma CountField(size: nat)
    requires size < COUNT_LIMIT
    ensures ((size % 0x1_0000) as bv16 & COUNT_MASK) as nat == size
  {
    var b := (size % 0x1_0000) as bv16;
    assert b as nat == size;
    MaskSmall(b);
  }

  lemma MaskSmall(b: bv16)
    requires b as nat < COUNT_LIMIT
    ensures b & COUNT_MASK == b
  {
    assert b < 0x400;
  }

  /** A count read through the count field is below the field's capacity. */
  lemma CountBounded(b: bv16)
    ensures (b & COUNT_MASK) as nat < COUNT_LIMIT
  {
    assert b & COUNT_MASK <= COUNT_MASK;
  }

  /** usbSend's copy lands in the transmit buffer the table entry names. */
  lemma SendCopies(d: Device, ep: Endpoint, data: seq<bv8>, size: nat)
    requires 2 * HalfwordCount(size) <= |data|
    requires TxCountSlot(ep.Number()) < TxStart(d.pma, ep)
    requires TxStart(d.pma, ep) + 2 * HalfwordCount(size) <= |d.pma|
    ensures ReadHalfwords(UsbSend(d, ep, data, size).pma, TxStart(d.pma, ep), HalfwordCount(size))
      == Halfwords(data, HalfwordCount(size))
  {
    var n := HalfwordCount(size);
    var start := TxStart(d.pma, ep);
    var hs := Halfwords(data, n);
    var copied := WriteHalfwords(d.pma, start, hs);
    var r := UsbSend(d, ep, data, size);
    var count := (size % 0x1_0000) as bv16;
    assert r.pma == Write(copied, TxCountSlot(ep.Number()), count);
    WriteThenRead(d.pma, start, hs);
    WriteBeforeKeeps(copied, TxCountSlot(ep.Number()), count, start, n);
  }

  /** A word written below a buffer leaves what is read from the buffer as
      it was. */
  lemma WriteBeforeKeeps(pma: seq<bv16>, k: nat, v: bv16, start: nat, n: nat)
    requires k < start
    ensures ReadHalfwords(Write(pma, k, v), start, n) == ReadHalfwords(pma, start, n)
  {
    var r := Write(pma, k, v);
    forall i | 0 <= i < n
      ensures Read(r, start + 2 * i) == Read(pma, start + 2 * i)
    {
    }
  }

  /** Transmitted depends only on the endpoint's table entry and the part of
      its buffer the count covers. */
  lemma TransmittedFrame(p: seq<bv16>, q: seq<bv16>, ep: Endpoint)
    requires Read(p, TxAddrSlot(ep.Number())) == Read(q, TxAddrSlot(ep.Number()))
    requires Read(p, TxCountSlot(ep.Number())) == Read(q, TxCountSlot(ep.Number()))
    requires forall i | 0 <= i < HalfwordCount((Read(p, TxCountSlot(ep.Number())) & COUNT_MASK) as nat)
      :: Read(p, TxStart(p, ep) + 2 * i) == Read(q, TxStart(p, ep) + 2 * i)
    ensures Transmitted(p, ep) == Transmitted(q, ep)
  {
    var count := (Read(p, TxCountSlot(ep.Number())) & COUNT_MASK) as nat;
    assert ReadHalfwords(p, TxStart(p, ep), HalfwordCount(count))
      == ReadHalfwords(q, TxStart(q, ep), HalfwordCount(count));
  }
}

=== FILE: packet_memory.dfy ===
/** The controller's packet memory and the firmware's copies into and out of it.

    Packet memory is modelled as a sequence of 16-bit slots indexed by the
    controller's byte offset. The CPU reaches it over a 32-bit-only bus: the
    halfword at (even) offset k sits in the lower half of its own 32-bit
    word, and the slot after it (offset k + 1) is the unused upper half. That
    is why both copy loops of the firmware step two slots per halfword.

    The firmware places a buffer table and four endpoint buffers at fixed,
    disjoint offsets (the Region constants below). Each table entry is four
    halfwords: transmit address, transmit count, receive address, receive
    count (buffer size plus received count). */
module PacketMemory {
  import opened Bytes

  /** Bytes of packet memory the controller addresses. */
  const PMA_SIZE: nat := 1024

  /** A contiguous range of packet memory. */
  datatype Region = Region(offset: nat, size: nat) {
    function End(): nat { offset + size }

    predicate Contains(k: int) { offset <= k < End() }

    predicate DisjointFrom(other: Region)
    {
      End() <= other.offset || other.End() <= offset
    }
  }

  const BUFFER_TABLE: Region := Region(0, 32)
  const EP0_TX_BUFFER: Region := Region(32, 64)
  const EP0_RX_BUFFER: Region := Region(96, 64)
  const EP1_TX_BUFFER: Region := Region(160, 16)
  const EP2_RX_BUFFER: Region := Region(176, 16)

  /** The regions of the layout, in increasing order of offset. */
  const LAYOUT: seq<Region> :=
    [BUFFER_TABLE, EP0_TX_BUFFER, EP0_RX_BUFFER, EP1_TX_BUFFER, EP2_RX_BUFFER]

  /** Endpoints the buffer descriptor table has room for. */
  const TABLE_ENDPOINTS: nat := 4

  /** Slots of endpoint `n`'s entry in the buffer descriptor table. */
  function TxAddrSlot(n: nat): nat { 8 * n }
  function TxCountSlot(n: nat): nat { 8 * n + 2 }
  function RxAddrSlot(n: nat): nat { 8 * n + 4 }
  function RxCountSlot(n: nat): nat { 8 * n + 6 }

  /** The layout regions are pairwise disjoint, lie inside packet memory, and
      every table entry of the four endpoints lies inside the table region. */
  lemma LayoutDisjoint()
    ensures forall i, j | 0 <= i < j < |LAYOUT| :: LAYOUT[i].DisjointFrom(LAYOUT[j])
    ensures forall i | 0 <= i < |LAYOUT| :: LAYOUT[i].End() <= PMA_SIZE
    ensures forall n: nat | n < TABLE_ENDPOINTS ::
      BUFFER_TABLE.Contains(TxAddrSlot(n)) && BUFFER_TABLE.Contains(TxCountSlot(n))
      && BUFFER_TABLE.Contains(RxAddrSlot(n)) && BUFFER_TABLE.Contains(RxCountSlot(n))
  {
  }

  /** Receive buffer size encoded in a receive-count entry: bit 15 selects
      32-byte blocks (count = blocks + 1) or 2-byte blocks, bits 14..10 hold
      the number of blocks. */
  function RxCapacity(count: bv16): nat
  {
    var blocks := ((count >> 10) & 0x1F) as nat;
    if count & 0x8000 != 0 then 32 * (blocks + 1) else 2 * blocks
  }

  /** Receive-count entry usbSetup writes for endpoint 0. */
  const EP0_RX_COUNT_INIT: bv16 := 0x8000 | (1 << 10)
  /** Receive-count entry usbSetupEndpoints writes for endpoint 2. */
  const EP2_RX_COUNT_INIT: bv16 := 8 << 10

  /** The receive sizes the firmware programs are exactly its receive
      regions: 64 bytes for endpoint 0 and 16 bytes for endpoint 2. */
  lemma RxCountsMatchLayout()
    ensures RxCapacity(EP0_RX_COUNT_INIT) == EP0_RX_BUFFER.size == 64
    ensures RxCapacity(EP2_RX_COUNT_INIT) == EP2_RX_BUFFER.size == 16
  {
  }

  /** Slot `k`, or 0 for a slot outside packet memory. */
  function Read(pma: seq<bv16>, k: int): bv16
  {
    if 0 <= k < |pma| then pma[k] else 0
  }

  /** Slot `k` set to `v`; a write outside packet memory is dropped. */
  function Write(pma: seq<bv16>, k: int, v: bv16): (r: seq<bv16>)
    ensures |r| == |pma|
    ensures forall j | 0 <= j < |pma| && j != k :: r[j] == pma[j]
    ensures 0 <= k < |pma| ==> Read(r, k) == v
  {
    if 0 <= k < |pma| then pma[k := v] else pma
  }

  /** Slot `k` is the one the `i`-th of `n` halfwords copied from `start`
      with stride 2 lands in. */
  predicate Strided(start: int, n: nat, k: int)
  {
    start <= k < start + 2 * n && (k - start) % 2 == 0
  }

  /** Packet memory after storing halfwords `hs` at every second slot from
      `start` (slots outside packet memory are dropped). */
  function WriteHalfwords(pma: seq<bv16>, start: nat, hs: seq<bv16>): (r: seq<bv16>)
    ensures |r| == |pma|
    ensures forall k | 0 <= k < |pma| && !Strided(start, |hs|, k) :: r[k] == pma[k]
  {
    seq(|pma|, k requires 0 <= k < |pma| =>
      if Strided(start, |hs|, k) then hs[(k - start) / 2] else pma[k])
  }

  /** `n` halfwords read from every second slot from `start`. */
  function ReadHalfwords(pma: seq<bv16>, start: nat, n: nat): (hs: seq<bv16>)
    ensures |hs| == n
  {
    seq(n, i requires 0 <= i < n => Read(pma, start + 2 * i))
  }

  /** Reading back with the same stride returns what was written, provided
      the halfwords fit in packet memory. */
  lemma WriteThenRead(pma: seq<bv16>, start: nat, hs: seq<bv16>)
    requires start + 2 * |hs| <= |pma|
    ensures ReadHalfwords(WriteHalfwords(pma, start, hs), start, |hs|) == hs
  {
    var r := WriteHalfwords(pma, start, hs);
    forall i | 0 <= i < |hs|
      ensures Read(r, start + 2 * i) == hs[i]
    {
      assert Strided(start, |hs|, start + 2 * i);
    }
  }

  /** Bytes of halfwords as they lie in memory, low byte first. */
  function Unpack(hs: seq<bv16>): (bytes: seq<bv8>)
    ensures |bytes| == 2 * |hs|
  {
    if hs == [] then [] else [Lo(hs[0]), Hi(hs[0])] + Unpack(hs[1..])
  }

  /** The first `n` halfwords of a byte buffer read as little-endian
      16-bit words: halfword i is bytes 2i and 2i+1. */
  function Halfwords(data: seq<bv8>, n: nat): (hs: seq<bv16>)
    requires 2 * n <= |data|
    ensures |hs| == n
  {
    if n == 0 then [] else [Join(data[0], data[1])] + Halfwords(data[2..], n - 1)
  }

  /** Packing bytes into halfwords and laying them out again gives the bytes
      back: the 16-bit copies preserve byte order. */
  lemma {:induction false} UnpackHalfwords(data: seq<bv8>, n: nat)
    requires 2 * n <= |data|
    ensures Unpack(Halfwords(data, n)) == data[..2 * n]
  {
    if n > 0 {
      UnpackHalfwords(data[2..], n - 1);
      assert Halfwords(data, n)[1..] == Halfwords(data[2..], n - 1);
      assert data[..2 * n] == [data[0], data[1]] + data[2..][..2 * (n - 1)];
    }
  }

  /** Laying halfwords out as bytes and packing them again gives the
      halfwords back. */
  lemma {:induction false} HalfwordsUnpack(hs: seq<bv16>)
    ensures Halfwords(Unpack(hs), |hs|) == hs
  {
    if hs != [] {
      HalfwordsUnpack(hs[1..]);
      JoinSplit(hs[0]);
      assert Unpack(hs)[2..] == Unpack(hs[1..]);
    }
  }

  /** Halfwords needed to carry `size` bytes. */
  function HalfwordCount(size: nat): nat
  {
    (size + 1) / 2
  }

  /** The copy loop of usbSend: `size` bytes of `data` go, two per halfword,
      to every second slot from `start`. The copy reads a whole halfword
      for an odd last byte, so `data` must have that many bytes. */
  method CopyToBuffer(pma: seq<bv16>, start: nat, data: seq<bv8>, size: nat) returns (r: seq<bv16>)
    requires 2 * HalfwordCount(size) <= |data|
    ensures r == WriteHalfwords(pma, start, Halfwords(data, HalfwordCount(size)))
  {
    var s := HalfwordCount(size);
    var src := Halfwords(data, s);
    r := pma;
    var i := 0;
    while i < s
      invariant 0 <= i <= s
      invariant r == WriteHalfwords(pma, start, src[..i])
    {
      WriteHalfwordsSnoc(pma, start, src[..i], src[i]);
      assert src[..i + 1] == src[..i] + [src[i]];
      r := Write(r, start + 2 * i, src[i]);
      i := i + 1;
    }
    assert src[..s] == src;
  }

  /** Storing one more halfword is one more slot write, two slots further on. */
  lemma WriteHalfwordsSnoc(pma: seq<bv16>, start: nat, hs: seq<bv16>, h: bv16)
    ensures WriteHalfwords(pma, start, hs + [h])
      == Write(WriteHalfwords(pma, start, hs), start + 2 * |hs|, h)
  {
    var a := WriteHalfwords(pma, start, hs + [h]);
    var b := Write(WriteHalfwords(pma, start, hs), start + 2 * |hs|, h);
    forall k | 0 <= k < |pma|
      ensures a[k] == b[k]
    {
      if k == start + 2 * |hs| {
        assert Strided(start, |hs| + 1, k);
        assert (hs + [h])[(k - start) / 2] == h;
      } else if Strided(start, |hs|, k) {
        assert Strided(start, |hs| + 1, k);
        assert (hs + [h])[(k - start) / 2] == hs[(k - start) / 2];
      } else {
        assert !Strided(start, |hs| + 1, k);
      }
    }
  }

  /** The copy loop that fetches the setup packet: `n` halfwords from every
      second slot from `start`, into consecutive halfwords. */
  method CopyFromBuffer(pma: seq<bv16>, start: nat, n: nat) returns (hs: seq<bv16>)
    ensures |hs| == n
    ensures forall i | 0 <= i < n :: hs[i] == Read(pma, start + 2 * i)
  {
    hs := [];
    var src := start;
    while |hs| < n
      invariant |hs| <= n
      invariant src == start + 2 * |hs|
      invariant forall i | 0 <= i < |hs| :: hs[i] == Read(pma, start + 2 * i)
    {
      hs := hs + [Read(pma, src)];
      src := src + 2;
    }
  }
}

=== FILE: registers.dfy ===
/** The endpoint register (USB_EPnR) of the STM32 full-speed USB controller
    and the four read-modify-write helpers the firmware builds on it.

    Fields of the register, one named mask each (the bit positions are those
    of the controller's endpoint register):
      RX_CTR | RX_DTOG | RX_STAT(2) | SETUP | EP_TYPE(2) | EP_KIND |
      TX_CTR | TX_DTOG | TX_STAT(2) | EP_ADDR(4)

    The register does not simply store what software writes: the data-toggle
    and status fields flip where a 1 is written, the correct-transfer flags can
    only be cleared (writing 1 keeps them), SETUP is read-only and only type,
    kind and address are plain read/write. `HwWrite` states that once; every
    helper below is "read, compute ((prev ^ x) & ~clear) | set, write" and its
    contract says which fields come out how, for every prior register value. */
module Registers {

  const RX_CTR: bv16 := 0x8000
  const RX_DTOG: bv16 := 0x4000
  const RX_STAT: bv16 := 0x3000
  const SETUP: bv16 := 0x0800
  const EP_TYPE: bv16 := 0x0600
  const EP_KIND: bv16 := 0x0100
  const TX_CTR: bv16 := 0x0080
  const TX_DTOG: bv16 := 0x0040
  const TX_STAT: bv16 := 0x0030
  const EP_ADDR: bv16 := 0x000F

  // Values of the two status fields
  const RX_STAT_DISABLED: bv16 := 0x0000
  const RX_STAT_STALL: bv16 := 0x1000
  const RX_STAT_NAK: bv16 := 0x2000
  const RX_STAT_VALID: bv16 := 0x3000
  const TX_STAT_DISABLED: bv16 := 0x0000
  const TX_STAT_STALL: bv16 := 0x0010
  const TX_STAT_NAK: bv16 := 0x0020
  const TX_STAT_VALID: bv16 := 0x0030

  // Values of the endpoint type field
  const TYPE_BULK: bv16 := 0x0000
  const TYPE_CONTROL: bv16 := 0x0200
  const TYPE_ISOCHRONOUS: bv16 := 0x0400
  const TYPE_INTERRUPT: bv16 := 0x0600

  /** Bits that flip when written 1 and keep their value when written 0. */
  const TOGGLE_BITS: bv16 := RX_DTOG | RX_STAT | TX_DTOG | TX_STAT
  /** Bits that software can only clear: writing 1 keeps the current value. */
  const STICKY_BITS: bv16 := RX_CTR | TX_CTR
  /** Bits that store what is written. */
  const PLAIN_BITS: bv16 := EP_TYPE | EP_KIND | EP_ADDR

  /** The named fields are pairwise disjoint and cover the whole register, so
      the four write behaviours below classify every bit exactly once. */
  lemma FieldsPartition()
    ensures RX_CTR & RX_DTOG == 0 && RX_DTOG & RX_STAT == 0 && RX_STAT & SETUP == 0
    ensures SETUP & EP_TYPE == 0 && EP_TYPE & EP_KIND == 0 && EP_KIND & TX_CTR == 0
    ensures TX_CTR & TX_DTOG == 0 && TX_DTOG & TX_STAT == 0 && TX_STAT & EP_ADDR == 0
    ensures TOGGLE_BITS & STICKY_BITS == 0 && TOGGLE_BITS & PLAIN_BITS == 0
    ensures STICKY_BITS & PLAIN_BITS == 0
    ensures (TOGGLE_BITS | STICKY_BITS | PLAIN_BITS | SETUP) & !SETUP == !SETUP
    ensures (TOGGLE_BITS | STICKY_BITS | PLAIN_BITS) & SETUP == 0
    ensures TOGGLE_BITS | STICKY_BITS | PLAIN_BITS | SETUP == 0xFFFF
  {
  }

  /** Bit `b` of `x`. */
  predicate BitSet(x: bv16, b: bv16)
    requires b < 16
  {
    (x >> b) & 1 == 1
  }

  /** The register value after software writes `w` over the current value
      `prev`, bit by bit according to the class the bit belongs to. */
  function HwWrite(prev: bv16, w: bv16): (r: bv16)
    ensures forall b: bv16 | b < 16 && BitSet(TOGGLE_BITS, b) ::
      BitSet(r, b) == (BitSet(prev, b) != BitSet(w, b))
    ensures forall b: bv16 | b < 16 && BitSet(STICKY_BITS, b) ::
      BitSet(r, b) == (BitSet(prev, b) && BitSet(w, b))
    ensures forall b: bv16 | b < 16 && BitSet(PLAIN_BITS, b) ::
      BitSet(r, b) == BitSet(w, b)
    ensures forall b: bv16 | b < 16 && BitSet(SETUP, b) ::
      BitSet(r, b) == BitSet(prev, b)
  {
    ((prev ^ w) & TOGGLE_BITS) | (prev & w & STICKY_BITS) | (w & PLAIN_BITS) | (prev & SETUP)
  }

  /** Writing back what was read, with 0 in the toggle bits and 1 in the
      correct-transfer flags, leaves the register as it was: this is the
      discipline the helpers follow for every field they do not own. */
  lemma HwWriteKeeps(prev: bv16)
    ensures HwWrite(prev, (prev & !TOGGLE_BITS) | STICKY_BITS) == prev
  {
  }

  /** Writing `prev ^ v` into a toggle field drives that field to `v`. */
  lemma HwWriteDrivesToggle(prev: bv16, field: bv16, v: bv16)
    requires field & TOGGLE_BITS == field
    requires v & field == v
    ensures HwWrite(prev, (prev ^ v) & field) & field == v
  {
  }

  /** The value the helpers write back: the current value with the status
      pattern `x` xor-ed in, the bits of `clear` written 0 and those of
      `setBits` (the firmware's `set` mask) written 1. */
  function Compose(prev: bv16, x: bv16, clear: bv16, setBits: bv16): bv16
  {
    ((prev ^ x) & !clear) | setBits
  }

  /** What writing the composed word does to each class of bit: a toggle
      field outside `clear` and `setBits` ends up equal to `x`, one in `clear`
      is left alone and one in `setBits` is flipped; a correct-transfer flag in
      `setBits` is left alone, one in `clear` is cleared and one outside both
      is cleared exactly where `x` has a 1; a plain bit in `setBits` or `clear`
      takes the value written and one outside both is flipped where `x` has a
      1; the SETUP flag is left alone. */
  lemma ComposedWrite(prev: bv16, x: bv16, clear: bv16, setBits: bv16)
    ensures HwWrite(prev, Compose(prev, x, clear, setBits)) & TOGGLE_BITS & !(clear | setBits)
      == x & TOGGLE_BITS & !(clear | setBits)
    ensures HwWrite(prev, Compose(prev, x, clear, setBits)) & TOGGLE_BITS & clear & !setBits
      == prev & TOGGLE_BITS & clear & !setBits
    ensures HwWrite(prev, Compose(prev, x, clear, setBits)) & TOGGLE_BITS & setBits
      == !prev & TOGGLE_BITS & setBits
    ensures HwWrite(prev, Compose(prev, x, clear, setBits)) & STICKY_BITS & setBits
      == prev & STICKY_BITS & setBits
    ensures HwWrite(prev, Compose(prev, x, clear, setBits)) & STICKY_BITS & clear & !setBits == 0
    ensures HwWrite(prev, Compose(prev, x, clear, setBits)) & STICKY_BITS & !(clear | setBits)
      == prev & !x & STICKY_BITS & !(clear | setBits)
    ensures HwWrite(prev, Compose(prev, x, clear, setBits)) & PLAIN_BITS & setBits
      == PLAIN_BITS & setBits
    ensures HwWrite(prev, Compose(prev, x, clear, setBits)) & PLAIN_BITS & clear & !setBits == 0
    ensures HwWrite(prev, Compose(prev, x, clear, setBits)) & PLAIN_BITS & !(clear | setBits)
      == (prev ^ x) & PLAIN_BITS & !(clear | setBits)
    ensures HwWrite(prev, Compose(prev, x, clear, setBits)) & SETUP == prev & SETUP
  {
  }

  /** Bits usbSend and usbSendStall write 0: the transmit flag is cleared, the
      other toggle fields are left alone. */
  const SEND_CLEAR: bv16 := TX_CTR | RX_DTOG | TX_DTOG | RX_STAT
  /** Bits usbSend and usbSendStall write 1: the receive flag is kept. */
  const SEND_SET: bv16 := RX_CTR
  /** Bits usbReceive writes 0. */
  const RECEIVE_CLEAR: bv16 := RX_CTR | RX_DTOG | TX_DTOG | TX_STAT
  /** Bits usbReceive writes 1. */
  const RECEIVE_SET: bv16 := TX_CTR
  /** Bits usbSetupEndpoints writes 0 besides the toggle fields it resets. */
  const CONFIGURE_CLEAR: bv16 := RX_CTR | TX_CTR | EP_TYPE | EP_KIND | EP_ADDR

  /** Everything but the transmit status and the transmit flag. */
  const NOT_TX_OWNED: bv16 := !(TX_STAT | TX_CTR)
  /** Everything but the receive status and the receive flag. */
  const NOT_RX_OWNED: bv16 := !(RX_STAT | RX_CTR)

  /** usbSend's register update: transmit armed (VALID), transmit flag
      cleared, every other field, the receive half included, unchanged. */
  function SendReg(prev: bv16): (r: bv16)
    ensures r & TX_STAT == TX_STAT_VALID
    ensures r & TX_CTR == 0
    ensures r & NOT_TX_OWNED == prev & NOT_TX_OWNED
  {
    HwWrite(prev, Compose(prev, TX_STAT_VALID, SEND_CLEAR, SEND_SET))
  }

  /** usbSendStall's register update: transmit STALL, transmit flag cleared,
      everything else unchanged. */
  function StallReg(prev: bv16): (r: bv16)
    ensures r & TX_STAT == TX_STAT_STALL
    ensures r & TX_CTR == 0
    ensures r & NOT_TX_OWNED == prev & NOT_TX_OWNED
  {
    HwWrite(prev, Compose(prev, TX_STAT_STALL, SEND_CLEAR, SEND_SET))
  }

  /** usbReceive's register update: reception armed (VALID), receive flag
      cleared, everything else, the transmit half included, unchanged. */
  function ReceiveReg(prev: bv16): (r: bv16)
    ensures r & RX_STAT == RX_STAT_VALID
    ensures r & RX_CTR == 0
    ensures r & NOT_RX_OWNED == prev & NOT_RX_OWNED
  {
    HwWrite(prev, Compose(prev, RX_STAT_VALID, RECEIVE_CLEAR, RECEIVE_SET))
  }

  /** usbSetupEndpoints' update of bulk IN endpoint 1: transmit STALL,
      reception disabled, both toggles 0, both flags cleared, type BULK,
      kind 0, address 1, whatever the register held before. */
  function BulkInReg(prev: bv16): (r: bv16)
    ensures r & TX_STAT == TX_STAT_STALL && r & RX_STAT == RX_STAT_DISABLED
    ensures r & RX_DTOG == 0 && r & TX_DTOG == 0
    ensures r & RX_CTR == 0 && r & TX_CTR == 0
    ensures r & EP_TYPE == TYPE_BULK && r & EP_KIND == 0 && r & EP_ADDR == 1
    ensures r & SETUP == prev & SETUP
  {
    HwWrite(prev, Compose(prev, TX_STAT_STALL, CONFIGURE_CLEAR, TYPE_BULK) | 1)
  }

  /** usbSetupEndpoints' update of bulk OUT endpoint 2: reception VALID,
      transmission disabled, both toggles 0, both flags cleared, type BULK,
      kind 0, address 2, whatever the register held before. */
  function BulkOutReg(prev: bv16): (r: bv16)
    ensures r & RX_STAT == RX_STAT_VALID && r & TX_STAT == TX_STAT_DISABLED
    ensures r & RX_DTOG == 0 && r & TX_DTOG == 0
    ensures r & RX_CTR == 0 && r & TX_CTR == 0
    ensures r & EP_TYPE == TYPE_BULK && r & EP_KIND == 0 && r & EP_ADDR == 2
    ensures r & SETUP == prev & SETUP
  {
    HwWrite(prev, Compose(prev, RX_STAT_VALID, CONFIGURE_CLEAR, TYPE_BULK) | 2)
  }

  /** usbSetup's plain write of the control endpoint (type CONTROL, receive
      VALID, address 0). Because it goes through the same register, the
      status and toggle fields are xor-ed with what they held: the result is
      "receive VALID, transmit disabled, toggles 0" only when they held 0,
      which is how the controller leaves the register after a bus reset. */
  function ControlReg(prev: bv16): (r: bv16)
    ensures r & RX_CTR == 0 && r & TX_CTR == 0
    ensures r & EP_TYPE == TYPE_CONTROL && r & EP_KIND == 0 && r & EP_ADDR == 0
    ensures r & TOGGLE_BITS == (prev & TOGGLE_BITS) ^ RX_STAT_VALID
    ensures r & SETUP == prev & SETUP
    ensures prev & TOGGLE_BITS == 0 ==>
      r & RX_STAT == RX_STAT_VALID && r & TX_STAT == TX_STAT_DISABLED
      && r & RX_DTOG == 0 && r & TX_DTOG == 0
  {
    HwWrite(prev, TYPE_CONTROL | RX_STAT_VALID | 0)
  }

  /** Stalling is idempotent: a stalled endpoint stalled again is unchanged,
      so repeated unsupported requests all meet the same answer. */
  lemma StallIdempotent(prev: bv16)
    ensures StallReg(StallReg(prev)) == StallReg(prev)
  {
  }

  /** Re-arming reception leaves the transmit half alone and re-arming
      transmission leaves the receive half alone, so the two commute. */
  lemma SendReceiveCommute(prev: bv16)
    ensures SendReg(ReceiveReg(prev)) == ReceiveReg(SendReg(prev))
  {
  }

  /** Counterexample for the plain write in usbSetup on a register the
      controller had not reset: an endpoint still receiving (RX_STAT VALID)
      comes out with reception disabled. */
  lemma ControlRegNeedsResetRegister()
    ensures ControlReg(RX_STAT_VALID) & RX_STAT == RX_STAT_DISABLED
  {
  }
}

=== FILE: setup_request.dfy ===
/** The 8-byte setup packet of a USB control transfer (section 9.3 of the
    USB 2.0 specification): bmRequestType, bRequest, then the little-endian
    16-bit wValue, wIndex and wLength. */
module SetupRequest {
  import opened Bytes

  /** Size of a setup packet in bytes. */
  const REQUEST_SIZE: nat := 8

  datatype Request = Request(
    requestType: bv8,  // direction | type | recipient
    request: bv8,
    value: bv16,
    index: bv16,
    length: bv16)

  // Parts of bmRequestType
  const DIRECTION_OUT: bv8 := 0x00  // host to device
  const DIRECTION_IN: bv8 := 0x80   // device to host
  const TYPE_MASK: bv8 := 0x60
  const TYPE_STANDARD: bv8 := 0x00
  const TYPE_CLASS: bv8 := 0x20
  const TYPE_VENDOR: bv8 := 0x40
  const RECIPIENT_MASK: bv8 := 0x1F
  const RECIPIENT_DEVICE: bv8 := 0x00
  const RECIPIENT_INTERFACE: bv8 := 0x01
  const RECIPIENT_ENDPOINT: bv8 := 0x02
  const RECIPIENT_OTHER: bv8 := 0x03

  // Standard request codes (table 9-4 of the USB 2.0 specification)
  const CLEAR_FEATURE: bv8 := 0x01
  const SET_ADDRESS: bv8 := 0x05
  const GET_DESCRIPTOR: bv8 := 0x06
  const SET_CONFIGURATION: bv8 := 0x09
  const SET_INTERFACE: bv8 := 0x0B

  /** The four bmRequestType values the firmware answers. */
  const STANDARD_OUT_DEVICE: bv8 := DIRECTION_OUT | TYPE_STANDARD | RECIPIENT_DEVICE
  const STANDARD_IN_DEVICE: bv8 := DIRECTION_IN | TYPE_STANDARD | RECIPIENT_DEVICE
  const STANDARD_OUT_INTERFACE: bv8 := DIRECTION_OUT | TYPE_STANDARD | RECIPIENT_INTERFACE
  const STANDARD_OUT_ENDPOINT: bv8 := DIRECTION_OUT | TYPE_STANDARD | RECIPIENT_ENDPOINT

  /** The packet a request travels as. */
  function Encode(r: Request): (b: seq<bv8>)
    ensures |b| == REQUEST_SIZE
    ensures Decode(b) == r
  {
    JoinSplit(r.value);
    JoinSplit(r.index);
    JoinSplit(r.length);
    [r.requestType, r.request] + Le16(r.value) + Le16(r.index) + Le16(r.length)
  }

  /** The request an 8-byte packet carries; every packet carries one. */
  function Decode(b: seq<bv8>): Request
    requires |b| == REQUEST_SIZE
  {
    Request(b[0], b[1], Join(b[2], b[3]), Join(b[4], b[5]), Join(b[6], b[7]))
  }

  /** Decoding loses nothing: every packet is the encoding of its request. */
  lemma EncodeDecode(b: seq<bv8>)
    requires |b| == REQUEST_SIZE
    ensures Encode(Decode(b)) == b
  {
  }
}
